=== FILE: README.md ===
# jsondb in Dafny

A model of the storage core of `jsondb`, a single-file, append-only JSON-lines
key-value store. Each line of the file is one log record. A record is either
an upsert, which carries an identifier and a payload, or a tombstone, which
carries an identifier and `"deleted": true`. A handle replays the log into an
in-memory history and allocates identifiers above every identifier it has
seen. It derives its views from the history: the live records, the records
including deleted ones, point lookup and the live count. Before each write it
catches up with the file and refuses to write when it is not at the end.

The modules follow the source files:

- `Boolean` (boolean.dfy) models the `True` and `False` marker types.
- `LogRecord` (record.dfy) models records, their constructors, and the
  untagged JSON encoding and decoding.
- `Views` (views.dfy) models the views of `database.rs`, computed the way the
  source computes them. `records` reverses the history, keeps the first record
  per identifier, then keeps only payloads, so a tombstone hides its
  identifier. `records_include_deleted` reverses the history, keeps only
  payloads first, then keeps the first payload per identifier, so the latest
  upsert survives a later tombstone. Both sort by identifier. Each view is then
  proved equal to an independent replay of the history into a map: `LiveMap`
  (last writer wins, tombstones remove) and `UpsertMap` (tombstones ignored).
- `Store` (store.dfy) models the handle. This covers `open`/`new`,
  `read_next`, `handle_record`, `is_at_end`, `reload`, `write_record`,
  `insert`, `upsert` and `delete`.
- `Replay` (replay.dfy) proves the single-writer guarantee. A handle stays in
  sync with the log through appends by others, and through its own writes of
  records whose payload has no "id" or "deleted" member. After catching up,
  it shows exactly the views a fresh handle rebuilds from the same file. The
  restriction is real: a payload holding `"deleted": true` is live for the
  writer but reads back as a tombstone (`Replay.MarkerPayloadDiverges`). The
  command-line tool removes both keys before every insert and upsert
  (src/bin/jsondb.rs:97-103, 118-125, 135-141).
- `CacheTag` (cache_tag.dfy) models `DefaultCacheTag`, with `u64` XOR written
  out bit by bit.
- `Scenarios` (scenarios.dfy) restates the tests of `src/tests.rs` for
  arbitrary payloads that avoid the reserved keys.
- `Wrappers` and `Json` are supporting modules: `Option`/`Result` and a JSON
  value type.

Abstractions:

- The file is a sequence of chunks, one per JSON value. A chunk is a complete
  JSON value, or `Broken`: bytes the JSON reader rejects, either malformed or cut
  short by a writer that has not finished its line.
- The handle's byte offset becomes an index into that sequence.
- The generic payload `T` is the flat JSON object it serializes to
  (`Fields`). Only that object is stored next to the identifier.
- Appends by other writers are an explicit `foreign` parameter of the write
  operations.

Decoding a line follows the derived deserializers:

- The untagged `Record` tries `Upsert` first, in declaration order. A
  `"deleted": true` marker makes that attempt fail through `False`, so the
  line then reads as a tombstone.
- A tombstone's extra members are ignored, not rejected.
- A tombstone also decodes from the two-element array `[id, true]`.

The handle's own line is read again on the next reload: `write_record` never
moves the offset past it. The model keeps this as written.
`Views.RepeatIsInvisible` and `Replay.WriteKeepsSync` prove the repeat changes
no view.

## Model

| member | source | states |
|---|---|---|
| Boolean.DecodeTrue | src/boolean.rs:10-25 | accepts exactly the JSON `true`; `false` is an invalid-value error naming "true", and anything that is not a boolean is an invalid-type error |
| Boolean.EncodeTrue | src/boolean.rs:27-34 | the encoding of `True` is the one value `DecodeTrue` accepts, and `DecodeFalse` rejects it |
| Boolean.DecodeFalse | src/boolean.rs:39-54 | accepts exactly the JSON `false`; `true` is an invalid-value error naming "false", and anything that is not a boolean is an invalid-type error |
| Boolean.EncodeFalse | src/boolean.rs:56-63 | the encoding of `False` is the one value `DecodeFalse` accepts, and `DecodeTrue` rejects it |
| Boolean.DecodeBool | src/boolean.rs:15 | `bool::deserialize` succeeds exactly on a JSON boolean, returning it, and otherwise is an invalid-type error naming the value |
| LogRecord.UpsertOf | src/record.rs:15-20 | builds an upsert with the given id, whose data is exactly that id and payload |
| LogRecord.DeleteOf | src/record.rs:22-24 | builds a tombstone with the given id, which carries no data |
| LogRecord.Data | src/database.rs:88 | `Record::data` is present exactly for upserts and is then the upsert's own id and payload |
| LogRecord.DecodeUpsert | src/record.rs:43-49 | an object decodes as an upsert exactly when it has a readable id and its "deleted" member is absent or `false`; the payload is the object without "id" and "deleted" |
| LogRecord.DecodeDelete | src/record.rs:57-61 | an object decodes as a tombstone exactly when it has a readable id and "deleted" is `true`; the array `[id, true]` does too; nothing else does |
| LogRecord.DecodeRecord | src/record.rs:7-12 | untagged decoding: a readable id with a `true` marker is a tombstone; with an absent or `false` marker it is an upsert of the other members; no readable id, or a non-boolean marker, reads as nothing; the array form can only be a tombstone |
| LogRecord.EncodeRecord | src/record.rs:36-61 | an upsert writes its id plus its flattened payload and no marker; a tombstone writes exactly the id and `"deleted": true` |
| LogRecord.RoundTrip | src/record.rs:36-61 | every record whose payload avoids "id" and "deleted" decodes back from its own encoding |
| LogRecord.DecodedIsEncodable | src/record.rs:7-61 | whatever decodes from a log line can be re-encoded and decodes to the same record |
| LogRecord.ReservedMarkerReadsAsTombstone | src/record.rs:45-48 | an upsert whose payload holds `"deleted": true` is written so that it reads back as a tombstone for the same id |
| LogRecord.MarkerPayloadReadsAsTombstone | src/record.rs:45-48 | the same for every payload that holds `"deleted": true` and no "id", whatever its other members |
| Views.LiveMapFollowsLatest | src/database.rs:82-92 | an id is live exactly when its most recent record is an upsert, and then it has that upsert's payload |
| Views.UpsertMapFollowsLatestUpsert | src/database.rs:94-104 | with tombstones ignored, an id maps to the payload of its most recent upsert |
| Views.Reverse | src/database.rs:86 | `rev()` has the same length and puts element `i` at position `len - 1 - i` |
| Views.UniqueBy | src/database.rs:87 | `unique_by` keeps only elements of its input, whose keys are pairwise distinct and not already seen |
| Views.UniqueByKeepsFirst | src/database.rs:87 | `unique_by` keeps an element exactly when it is the first occurrence of a key not already seen |
| Views.DataOf | src/database.rs:88 | `filter_map(Record::data)` yields exactly the payloads of the upserts, with distinct ids when the records have distinct ids |
| Views.DataOfAppend | src/database.rs:88 | `filter_map` keeps order: the payloads of two concatenated histories are the payloads of the first followed by those of the second |
| Views.SortById | src/database.rs:90 | the sort returns a permutation of its input |
| Views.SortStrictlyAscending | src/database.rs:90 | sorting entries with distinct ids leaves them strictly ascending by id |
| Views.Records | src/database.rs:82-92 | the live view is strictly ascending by id and holds exactly the (id, payload) pairs of the last-writer-wins replay |
| Views.RecordsIncludeDeleted | src/database.rs:94-104 | this view is strictly ascending by id and holds exactly the pairs of the replay that ignores tombstones |
| Views.LiveViewWithinFullView | src/database.rs:82-104 | every live entry also appears in the view that includes deleted records |
| Views.RecordCount | src/database.rs:106-108 | the count is the number of live ids |
| Views.Find | src/database.rs:111 | `find` returns the first element of the view with the requested id, and nothing exactly when no element has it |
| Views.Get | src/database.rs:110-112 | `get(id)` is the live payload of `id`, or nothing when `id` is not live |
| Views.LastRecordDecides | src/database.rs:110-112 | `get` of the last record's id is that record's data, so a tombstone leaves nothing |
| Views.ViewsFollowReplay | src/database.rs:82-104 | two histories with the same replay maps have identical views |
| Views.SameMapsAfter | src/database.rs:51-56 | histories that agree on both maps still agree after the same records are folded in |
| Views.RepeatIsInvisible | src/database.rs:124-143 | folding the same record in twice in a row changes neither map nor either view |
| Store.New | src/database.rs:35-44 | a new handle starts at the stream's position with an empty history, empty views and the allocator at 1 |
| Store.Open | src/database.rs:16-31 | an opened handle starts at offset 0 with an empty history, empty views and the allocator at 1 |
| Store.ReadBack | src/database.rs:60-63 | a broken value reads as nothing, and any record read from a value is written back as a line that reads as the same record |
| Store.ReadNext | src/database.rs:58-67 | returns nothing exactly at or past the end; otherwise returns the record the value at the offset reads as and moves past it, or fails with the handle unchanged |
| Store.HandleRecord | src/database.rs:51-56 | appends the record and moves the allocator above its id only when needed, keeping the allocator above every id |
| Store.IsAtEnd | src/database.rs:69-72 | at the end, a read yields nothing; before the end, it does not; an offset past the end is not the end, since the comparison is for equality |
| Store.DecodeLogAppend | src/database.rs:74-80 | a log replays exactly when both its parts do, and then its records are theirs, in order |
| Store.Reload | src/database.rs:74-80 | succeeds exactly when the rest of the log replays, ending at the end with exactly those records folded in; a parse error leaves the offset on the failing value; the history only grows |
| Store.ReloadStopsAtBroken | src/database.rs:74-80 | a reload stops on the first value after the offset that is not a record, with everything before it folded in |
| Store.NextAfterIsMax | src/database.rs:51-56 | folding records into the allocator gives the maximum of its value and each id plus one |
| Store.NextAfterAppend | src/database.rs:51-56 | folding two runs of records into the allocator is folding in the first run, then the second |
| Store.ReloadNext | src/database.rs:74-80 | after a reload, the allocator is where folding in the records read puts it |
| Store.ReloadOnlyExtends | src/database.rs:74-80 | a reload never removes or reorders history entries |
| Store.WriteRecord | src/database.rs:124-143 | after catching up, appends the record's line and folds it in exactly when the rest of the log replays and no other writer appended; a foreign append is Expected EOF with nothing written; a failed catch-up writes nothing; the allocator is where `handle_record` puts it after the caught-up records and then the written one |
| Store.Line | src/database.rs:133-136 | the line written for an encodable record reads back as that record; an upsert whose payload has its own "id" is a line no reader accepts |
| Store.Insert | src/database.rs:145-152 | returns the allocator's value, which is above every id in the history; the allocator advances even when the write fails; on success the history is the caught-up history plus exactly the new upsert, the allocator is its old value plus one raised by the caught-up records, and `get` returns the new payload |
| Store.Current | src/database.rs:158 | the resolver sees the live payload of the id, or nothing |
| Store.Upsert | src/database.rs:154-167 | a new payload is written as an upsert and then read by `get`; no payload deletes a live record and does nothing at all for a record that is not live; on a write the history is the caught-up history plus exactly that one record |
| Store.Delete | src/database.rs:169-171 | always writes a tombstone; the id then leaves the live view, and the view including deleted records is unchanged |
| Store.TombstoneReplay | src/database.rs:169-171 | folding in one tombstone removes its id from the live map and leaves the upsert map alone |
| Replay.FreshReplay | src/database.rs:74-80 | a fresh handle over a replayable log folds in exactly its records and stops at its end |
| Replay.FreshInSync | src/database.rs:74-80 | a fresh handle that has read a whole log is in sync with it |
| Replay.AppendKeepsSync | src/database.rs:74-80 | appends by anyone keep a handle in sync, as long as they replay |
| Replay.WrittenKeepsSync | src/database.rs:124-143 | the handle and log a write of an encodable record leaves, after catching up and appending, are in sync and have the maps of the extended log |
| Replay.WriteKeepsSync | src/database.rs:124-143 | a write by an in-sync handle of a record whose payload has no "id" or "deleted" member succeeds and leaves it in sync, with the maps of the extended log, even though its own line is read again later |
| Replay.MarkerPayloadDiverges | src/database.rs:124-143 | an in-sync write of an upsert whose payload holds `"deleted": true` succeeds and the writer sees the id live, while the file it leaves replays with the id deleted |
| Replay.SyncedViewsMatchFresh | src/database.rs:74-104 | after catching up, an in-sync handle shows the same views as a fresh handle over the same log |
| Replay.SyncedMapsMatchLog | src/database.rs:74-80 | after catching up, an in-sync handle's maps are those of the whole log |
| Replay.ReloadIdempotent | src/database.rs:74-80 | reloading straight after a successful reload changes nothing |
| Replay.ParseErrorPersists | src/database.rs:58-67 | a reload stopped by a parse error stops at the same place on every retry over the same log |
| CacheTag.XorSelfInverse | src/cache_tag.rs:19 | XOR-ing with the same mask twice gives the original value back |
| CacheTag.XorU64 | src/cache_tag.rs:19 | the XOR of two `u64` values is a `u64` |
| CacheTag.Default | src/cache_tag.rs:8-11 | the default tag counts zero values, so its tag is the seed |
| CacheTag.ProcessValue | src/cache_tag.rs:14-16 | counts one more value whatever it is, and fails exactly when the counter would overflow `u64` |
| CacheTag.Tag | src/cache_tag.rs:18-20 | the tag XOR-ed with the seed gives the counter back |
| CacheTag.TagInjective | src/cache_tag.rs:18-20 | two tags are equal exactly when the counters are |
| CacheTag.ProcessChangesTag | src/cache_tag.rs:14-20 | every processed value changes the tag |
| CacheTag.ProcessAllCounts | src/cache_tag.rs:14-16 | `n` values raise the counter by exactly `n` while it fits in 64 bits |
| CacheTag.TagAfter | src/cache_tag.rs:8-20 | after `n` values from the default, the tag is `n` XOR the seed and depends on nothing else |
| Scenarios.ReadTest | src/tests.rs:13-51 | replaying the five-line log shows record 1 with its latest payload and record 3, in order; record 2 is deleted |
| Scenarios.PartialReadTest | src/tests.rs:53-65 | a truncated last line makes the reload fail, with the two complete records folded in and the offset on the broken line |
| Scenarios.WriteTest | src/tests.rs:67-187 | on that log, insert returns 4, delete 1 and the upsert that adds "c" to 3 succeed; the live view is 3 then 4; the file re-reads as the eight records |
| Scenarios.WriteTestLoad | src/tests.rs:69-82 | the fresh handle reads all five records, has its allocator at 4 and is in sync |
| Scenarios.InsertThenReopen | src/tests.rs:189-221 | the first insert into an empty file gets id 1, and a handle opened afterwards reads that record back |
| Scenarios.InsertThenDeleteAcrossHandles | src/tests.rs:223-297 | handle B sees A's insert and deletes it; A catches up and sees no live record |

## Left out

- Byte-level I/O is not modelled: the `BufReader`, `Seek`, I/O errors, flushing and `close`. The file is a sequence of complete or broken JSON values; `Error` keeps only the parse error, the Expected EOF refusal and the identifier overflow.
- Store.Reload: offsets count values, not bytes, so whitespace between values and the position `Database::new` reads from the stream are not modelled.
- LogRecord.DecodeRecord: JSON numbers are integers, and serde's full number and string handling is not modelled. An id outside the `u32` range is rejected as it is by serde.
- Store.HandleRecord: requires an id below `u32::MAX`. The `id + 1` overflow there is a panic in debug builds; in release builds it wraps `next_record_id` to 0, after which `insert` hands out ids already in use. The model has neither: `Reload` and `WriteRecord` turn a record with id `u32::MAX` into the `IdOverflow` error.
- Store.Insert: the `next_record_id += 1` overflow at `u32::MAX` is modelled as the `IdOverflow` error, not a panic. The new id is only known to be above the ids this handle has seen, not above the ids appended by others after its last reload, just as in the source.
- CacheTag.ProcessValue: the `u64` counter overflow, a panic or a wrap-around depending on the build, is modelled as `None`.
- LogRecord.EncodeRecord: a payload with its own "id" member is written by serde with the key twice, and such a line fails to decode. `EncodeRecord` lets the identifier win; `Store.Line` is what reaches the file, and it writes such an upsert as a `Broken` chunk, so every later reload stops on it. The round trip is stated only for payloads without "id" or "deleted". A payload "deleted" member is written, as flattening does, which is why `ReservedMarkerReadsAsTombstone` holds.
- LogRecord.DecodeUpsert: the payload type is fixed to a JSON object, so decoding the payload never fails. With a concrete `T` such as the tests' `MyObject`, a line like `{"id":5,"deleted":false}` is a parse error because the struct's fields are missing; the model reads it as an upsert with an empty payload.
- Views.UniqueBy: keeps the input order by construction, but its contracts state which elements are kept, not their order; the views sort the result by id afterwards.
- The `CacheTag` trait is represented only by its `DefaultCacheTag` implementation; `tag` is a pure function, so reading it twice trivially gives the same value.
- `HashCacheTag` is left out: it depends on a foreign `Hasher`. `src/lib.rs` and the command-line tool `src/bin/jsondb.rs` are also not part of this model.
- Concurrent writers are left out beyond the `foreign` parameter and the sequential two-handle scenario. The real race in `parallel_write_test` (threads and barriers) is not modelled.
- Views.Records: the sort is an insertion sort, proved to permute its input and to order it. Stability is not stated, because the entries it sorts have distinct ids.
- Scenarios.WriteTest: the payloads are arbitrary objects without the reserved keys, not the test's `MyObject` struct. The test's exact JSON text and whitespace are not modelled.
- `Record::id` has no contract of its own. `UpsertOf`, `DeleteOf`, `Data` and `HandleRecord` state what it returns.

=== FILE: boolean.dfy ===
/**
 * The `True` and `False` marker types of src/boolean.rs: unit types whose only
 * serialization is the JSON boolean of the same name. They are what lets the
 * untagged `Record` encoding tell an upsert from a tombstone.
 */
module Boolean {
  import opened Wrappers
  import opened Json

  datatype True = True
  datatype False = False

  /** Why a deserialization failed, as serde classifies it. */
  datatype DeError =
    | InvalidType(value: Json)                   // not a boolean at all
    | InvalidValue(unexpected: bool, expected: string) // the other boolean

  /** `bool::deserialize`: only a JSON boolean is accepted. */
  function DecodeBool(v: Json): (r: Result<bool, DeError>)
    ensures r.Ok? <==> v.Bool?
    ensures r.Ok? ==> v == Bool(r.value)
    ensures r.Err? ==> r.error == InvalidType(v)
  {
    if v.Bool? then Ok(v.b) else Err(InvalidType(v))
  }

  /** `<True as Deserialize>::deserialize`. */
  function DecodeTrue(v: Json): (r: Result<True, DeError>)
    ensures r.Ok? <==> v == Bool(true)
    ensures v == Bool(false) ==> r == Err(InvalidValue(false, "true"))
    ensures !v.Bool? ==> r == Err(InvalidType(v))
  {
    match DecodeBool(v)
    case Err(e) => Err(e)
    case Ok(value) =>
      if value == true then Ok(True) else Err(InvalidValue(value, "true"))
  }

  /** `<False as Deserialize>::deserialize`. */
  function DecodeFalse(v: Json): (r: Result<False, DeError>)
    ensures r.Ok? <==> v == Bool(false)
    ensures v == Bool(true) ==> r == Err(InvalidValue(true, "false"))
    ensures !v.Bool? ==> r == Err(InvalidType(v))
  {
    match DecodeBool(v)
    case Err(e) => Err(e)
    case Ok(value) =>
      if value == false then Ok(False) else Err(InvalidValue(value, "false"))
  }

  /** `<True as Serialize>::serialize`: the one value `DecodeTrue` accepts. */
  function EncodeTrue(t: True): (v: Json)
    ensures DecodeTrue(v) == Ok(t)
    ensures DecodeFalse(v).Err?
  {
    match t
    case True => Bool(true)
  }

  /** `<False as Serialize>::serialize`: the one value `DecodeFalse` accepts. */
  function EncodeFalse(f: False): (v: Json)
    ensures DecodeFalse(v) == Ok(f)
    ensures DecodeTrue(v).Err?
  {
    match f
    case False => Bool(false)
  }
}

=== FILE: cache_tag.dfy ===
/**
 * The cache tag of `src/cache_tag.rs`: a 64-bit fingerprint of the values
 * a reader has processed. `DefaultCacheTag` only counts them and scrambles
 * the count with a fixed constant; the values themselves are never looked at.
 *
 * The `u64` operations are written on unbounded integers: the range is a
 * subset type and bitwise XOR is defined bit by bit.
 */
module CacheTag {
  import opened Wrappers

  const U64_LIMIT: int := 0x1_0000_0000_0000_0000
  type U64 = n: int | 0 <= n < U64_LIMIT

  /** The constant the counter is XOR-ed with. */
  const SEED: U64 := 0x6e2797fa0b96b68f

  /** Bitwise exclusive or of two naturals, lowest bit first. */
  function Xor(a: nat, b: nat): nat
    decreases a + b
  {
    if a == 0 && b == 0 then 0
    else 2 * Xor(a / 2, b / 2) + (a % 2 + b % 2) % 2
  }

  lemma {:induction false} XorZero(a: nat)
    ensures Xor(a, 0) == a && Xor(0, a) == a
    decreases a
  {
    if a != 0 {
      XorZero(a / 2);
    }
  }

  /** XOR-ing with the same mask twice gives the original back. */
  lemma {:induction false} XorSelfInverse(a: nat, b: nat)
    ensures Xor(Xor(a, b), b) == a
    decreases a + b
  {
    var c := Xor(a, b);
    if a == 0 && b == 0 {
    } else if c == 0 && b == 0 {
      XorZero(a);
    } else {
      var x, y := a % 2, b % 2;
      var q, bit := Xor(a / 2, b / 2), (x + y) % 2;
      assert c == 2 * q + bit;
      DivMod2(q, bit);
      XorSelfInverse(a / 2, b / 2);
      assert Xor(c, b) == 2 * Xor(q, b / 2) + (bit + y) % 2;
      BitTwice(x, y);
    }
  }

  /** XOR-ing one bit with another twice gives the first back. */
  lemma BitTwice(x: nat, y: nat)
    requires x < 2 && y < 2
    ensures ((x + y) % 2 + y) % 2 == x
  {
    if x == 1 && y == 1 {
      assert (x + y) % 2 == 0;
    }
  }

  /** The quotient and remainder of `2 * q + bit` by two. */
  lemma DivMod2(q: nat, bit: nat)
    requires bit < 2
    ensures (2 * q + bit) / 2 == q && (2 * q + bit) % 2 == bit
  {
  }

  /** XOR with a fixed mask is injective. */
  lemma XorInjective(a: nat, b: nat, mask: nat)
    ensures Xor(a, mask) == Xor(b, mask) <==> a == b
  {
    XorSelfInverse(a, mask);
    XorSelfInverse(b, mask);
  }

  /** XOR of two numbers below `2^64` stays below `2^64`. */
  lemma XorU64(a: U64, b: U64)
    ensures Xor(a, b) < U64_LIMIT
  {
    Pow2Of64();
    XorBelow(a, b, 64);
  }

  function Pow2(n: nat): (p: nat)
    ensures p >= 1
  {
    if n == 0 then 1 else 2 * Pow2(n - 1)
  }

  lemma {:induction false} Pow2Add(m: nat, n: nat)
    ensures Pow2(m + n) == Pow2(m) * Pow2(n)
    decreases m
  {
    if m > 0 {
      Pow2Add(m - 1, n);
    }
  }

  lemma Pow2Of64()
    ensures Pow2(64) == U64_LIMIT
  {
    assert Pow2(2) == 4;
    Pow2Add(2, 2);
    assert Pow2(4) == 16;
    Pow2Add(4, 4);
    assert Pow2(8) == 0x100;
    Pow2Add(8, 8);
    assert Pow2(16) == 0x1_0000;
    Pow2Add(16, 16);
    assert Pow2(32) == 0x1_0000_0000;
    Pow2Add(32, 32);
  }

  lemma {:induction false} XorBelow(a: nat, b: nat, n: nat)
    requires a < Pow2(n) && b < Pow2(n)
    ensures Xor(a, b) < Pow2(n)
    decreases n
  {
    if n == 0 {
      assert a == 0 && b == 0;
    } else if a != 0 || b != 0 {
      XorBelow(a / 2, b / 2, n - 1);
    }
  }

  datatype DefaultCacheTag = DefaultCacheTag(counter: U64)

  /** `tag`: the counter XOR-ed with the seed; XOR-ing the seed again recovers the counter. */
  function Tag(t: DefaultCacheTag): (tag: U64)
    ensures Xor(tag, SEED) == t.counter
  {
    XorU64(t.counter, SEED);
    XorSelfInverse(t.counter, SEED);
    Xor(t.counter, SEED)
  }

  /** The derived `Default`: the counter starts at zero, so the tag is the seed itself. */
  function Default(): (t: DefaultCacheTag)
    ensures t.counter == 0
    ensures Tag(t) == SEED
  {
    XorZero(SEED);
    DefaultCacheTag(0)
  }

  /**
   * `process_value`: count one more value, whatever it is. Incrementing a
   * full `u64` counter is an arithmetic overflow, modelled as `None`.
   */
  function ProcessValue<T>(t: DefaultCacheTag, value: T): (r: Option<DefaultCacheTag>)
    ensures r.Some? <==> t.counter < U64_LIMIT - 1
    ensures r.Some? ==> r.value.counter == t.counter + 1
  {
    if t.counter == U64_LIMIT - 1 then None
    else Some(DefaultCacheTag(t.counter + 1))
  }

  /** Two handles have the same tag exactly when they have counted the same number of values. */
  lemma TagInjective(a: DefaultCacheTag, b: DefaultCacheTag)
    ensures Tag(a) == Tag(b) <==> a == b
  {
    XorInjective(a.counter, b.counter, SEED);
  }

  /** Every processed value changes the tag. */
  lemma ProcessChangesTag<T>(t: DefaultCacheTag, value: T)
    requires ProcessValue(t, value).Some?
    ensures Tag(ProcessValue(t, value).value) != Tag(t)
  {
    TagInjective(ProcessValue(t, value).value, t);
  }

  /** Process the values of `vs` in order, stopping at the first overflow. */
  function ProcessAll<T>(t: DefaultCacheTag, vs: seq<T>): Option<DefaultCacheTag>
    decreases |vs|
  {
    if |vs| == 0 then Some(t)
    else
      match ProcessValue(t, vs[0])
      case None => None
      case Some(t') => ProcessAll(t', vs[1..])
  }

  /**
   * Starting from any counter, `n` values raise it by exactly `n` as long as
   * the sum fits in 64 bits, whatever the values are.
   */
  lemma {:induction false} ProcessAllCounts<T>(t: DefaultCacheTag, vs: seq<T>)
    requires t.counter + |vs| < U64_LIMIT
    ensures ProcessAll(t, vs).Some?
    ensures ProcessAll(t, vs).value.counter == t.counter + |vs|
    decreases |vs|
  {
    if |vs| > 0 {
      var t' := ProcessValue(t, vs[0]).value;
      ProcessAllCounts(t', vs[1..]);
    }
  }

  /** After `n` values from the default, the tag is `n` XOR the seed, and it depends on nothing else. */
  lemma TagAfter<T>(vs: seq<T>)
    requires |vs| < U64_LIMIT
    ensures ProcessAll(Default(), vs).Some?
    ensures Tag(ProcessAll(Default(), vs).value) == Xor(|vs|, SEED)
  {
    ProcessAllCounts(Default(), vs);
  }
}

=== FILE: json.dfy ===
/**
 * The JSON values the record codec works on. Objects are maps from keys to
 * values, so a key occurs at most once; numbers are integers, which is all the
 * record format itself reads (the identifier).
 */
module Json {

  datatype Json =
    | Null
    | Bool(b: bool)
    | Num(n: int)
    | Str(s: string)
    | Arr(items: seq<Json>)
    | Obj(fields: map<string, Json>)

  /** A JSON object's members. */
  type Fields = map<string, Json>
}

=== FILE: record.dfy ===
/**
 * One log entry (src/record.rs) and its untagged JSON encoding.
 *
 * The payload type of the source is generic; here it is the flat JSON object
 * the payload serializes to, which is exactly what the flattened encoding
 * stores next to the identifier.
 */
module LogRecord {
  import opened Wrappers
  import opened Json
  import opened Boolean

  /** The largest `u32`. */
  const MAX_ID: int := 0xFFFF_FFFF

  /** `RecordId = u32`. */
  type RecordId = n: int | 0 <= n <= MAX_ID

  const ID_KEY: string := "id"
  const DELETED_KEY: string := "deleted"

  /** An identifier with its payload: what the read operations return. */
  datatype RecordData = RecordData(id: RecordId, data: Fields)

  /** An upsert entry; its `deleted` marker can only be `False`. */
  datatype UpsertRecord = UpsertRecord(deleted: False, data: RecordData)

  /** A tombstone; its `deleted` marker can only be `True`. */
  datatype DeleteRecord = DeleteRecord(id: RecordId, deleted: True)

  datatype Record = Upsert(upsert: UpsertRecord) | Delete(delete: DeleteRecord)
  {
    /** `Record::id`. */
    function Id(): RecordId
    {
      match this
      case Upsert(u) => u.data.id
      case Delete(d) => d.id
    }
  }

  /** `Record::upsert`. */
  function UpsertOf(id: RecordId, data: Fields): (r: Record)
    ensures r.Upsert? && r.Id() == id
    ensures Data(r) == Some(RecordData(id, data))
  {
    Upsert(UpsertRecord(False, RecordData(id, data)))
  }

  /** `Record::delete`. */
  function DeleteOf(id: RecordId): (r: Record)
    ensures r.Delete? && r.Id() == id
    ensures Data(r) == None
  {
    Delete(DeleteRecord(id, True))
  }

  /** `Record::data`: the identifier and payload of an upsert, nothing for a tombstone. */
  function Data(r: Record): (d: Option<RecordData>)
    ensures d.Some? <==> r.Upsert?
    ensures d.Some? ==> d.value.id == r.Id() && d.value == r.upsert.data
  {
    match r
    case Upsert(u) => Some(u.data)
    case Delete(_) => None
  }

  // ---------------------------------------------------------------------------
  // Decoding

  /** A `u32` read from a JSON number. */
  function DecodeId(v: Json): Option<RecordId>
  {
    if v.Num? && 0 <= v.n <= MAX_ID then Some(v.n) else None
  }

  /** The object carries an "id" member that reads as a `u32`. */
  predicate HasId(fields: Fields)
  {
    ID_KEY in fields && DecodeId(fields[ID_KEY]).Some?
  }

  /**
   * The derived deserializer of `UpsertRecord`: an object whose "deleted"
   * member, if present, reads as `False` (it defaults to `False` when absent);
   * "id" is mandatory; every other member is the flattened payload.
   */
  function DecodeUpsert(v: Json): (r: Option<UpsertRecord>)
    ensures r.Some? <==> v.Obj? && HasId(v.fields) &&
                         (DELETED_KEY !in v.fields || v.fields[DELETED_KEY] == Bool(false))
    ensures r.Some? ==> r.value.data == RecordData(v.fields[ID_KEY].n, v.fields - {ID_KEY, DELETED_KEY})
  {
    if !v.Obj? then None
    else
      var fields := v.fields;
      var deleted := if DELETED_KEY in fields then DecodeFalse(fields[DELETED_KEY]) else Ok(False);
      if deleted.Err? || ID_KEY !in fields then None
      else
        match DecodeId(fields[ID_KEY])
        case None => None
        case Some(id) => Some(UpsertRecord(deleted.value, RecordData(id, fields - {ID_KEY, DELETED_KEY})))
  }

  /** The two fields of a `DeleteRecord`, in declaration order. */
  function DecodeDeleteFields(id: Json, deleted: Json): Option<DeleteRecord>
  {
    match (DecodeId(id), DecodeTrue(deleted))
    case (Some(i), Ok(t)) => Some(DeleteRecord(i, t))
    case _ => None
  }

  /**
   * The derived deserializer of `DeleteRecord`: an object with "id" and a
   * "deleted" member that reads as `True`, other members ignored; or, as for
   * every derived struct without flattened fields, an array of exactly the two
   * field values.
   */
  function DecodeDelete(v: Json): (r: Option<DeleteRecord>)
    ensures v.Obj? ==> (r.Some? <==> HasId(v.fields) && DELETED_KEY in v.fields && v.fields[DELETED_KEY] == Bool(true))
    ensures v.Obj? && r.Some? ==> r.value.id == v.fields[ID_KEY].n
    ensures v.Arr? ==> (r.Some? <==> |v.items| == 2 && DecodeId(v.items[0]).Some? && v.items[1] == Bool(true))
    ensures v.Arr? && r.Some? ==> r.value.id == v.items[0].n
    ensures !v.Obj? && !v.Arr? ==> r.None?
  {
    match v
    case Obj(fields) =>
      if ID_KEY in fields && DELETED_KEY in fields
      then DecodeDeleteFields(fields[ID_KEY], fields[DELETED_KEY])
      else None
    case Arr(items) =>
      if |items| == 2 then DecodeDeleteFields(items[0], items[1]) else None
    case _ => None
  }

  /**
   * The untagged `Record` deserializer: the variants are tried in declaration
   * order, `Upsert` first, and the first that succeeds wins.
   */
  function DecodeRecord(v: Json): (r: Option<Record>)
    // a true marker rules the upsert out, so a tombstone is read
    ensures v.Obj? && HasId(v.fields) && DELETED_KEY in v.fields && v.fields[DELETED_KEY] == Bool(true)
            ==> r == Some(DeleteOf(v.fields[ID_KEY].n))
    // an absent or false marker reads as an upsert carrying the other members
    ensures v.Obj? && HasId(v.fields) && (DELETED_KEY !in v.fields || v.fields[DELETED_KEY] == Bool(false))
            ==> r == Some(UpsertOf(v.fields[ID_KEY].n, v.fields - {ID_KEY, DELETED_KEY}))
    // without a readable identifier, or with a marker that is not a boolean, nothing is read
    ensures v.Obj? && !HasId(v.fields) ==> r == None
    ensures v.Obj? && DELETED_KEY in v.fields && !v.fields[DELETED_KEY].Bool? ==> r == None
    // the array form can only be a tombstone
    ensures v.Arr? ==> (r.Some? <==> |v.items| == 2 && DecodeId(v.items[0]).Some? && v.items[1] == Bool(true))
    ensures v.Arr? && r.Some? ==> r == Some(DeleteOf(v.items[0].n))
    ensures !v.Obj? && !v.Arr? ==> r == None
  {
    match DecodeUpsert(v)
    case Some(u) => Some(Upsert(u))
    case None =>
      match DecodeDelete(v)
      case Some(d) => Some(Delete(d))
      case None => None
  }

  // ---------------------------------------------------------------------------
  // Encoding

  /**
   * The untagged `Record` serializer. An upsert writes its identifier and its
   * flattened payload; its marker is `skip_serializing`, so no "deleted" member
   * is written. A tombstone writes its identifier and `"deleted": true`.
   */
  function EncodeRecord(r: Record): (v: Json)
    ensures v.Obj? && ID_KEY in v.fields && v.fields[ID_KEY] == Num(r.Id())
    ensures r.Upsert? ==> v.fields.Keys == {ID_KEY} + r.upsert.data.data.Keys
    ensures r.Upsert? ==> forall k :: k in r.upsert.data.data && k != ID_KEY ==> v.fields[k] == r.upsert.data.data[k]
    ensures r.Upsert? && DELETED_KEY !in r.upsert.data.data ==> DELETED_KEY !in v.fields
    ensures r.Delete? ==> v.fields.Keys == {ID_KEY, DELETED_KEY} && v.fields[DELETED_KEY] == Bool(true)
  {
    match r
    case Upsert(u) => Obj(u.data.data[ID_KEY := Num(u.data.id)])
    case Delete(d) => Obj(map[ID_KEY := Num(d.id), DELETED_KEY := EncodeTrue(d.deleted)])
  }

  /** A record whose encoding reads back as itself: its payload uses neither reserved key. */
  predicate Encodable(r: Record)
  {
    r.Upsert? ==> ID_KEY !in r.upsert.data.data && DELETED_KEY !in r.upsert.data.data
  }

  /** Every record whose payload avoids the reserved keys reads back from its own encoding. */
  lemma RoundTrip(r: Record)
    requires Encodable(r)
    ensures DecodeRecord(EncodeRecord(r)) == Some(r)
  {
    match r
    case Upsert(u) =>
      var v := EncodeRecord(r);
      assert v.fields - {ID_KEY, DELETED_KEY} == u.data.data;
      assert DELETED_KEY !in v.fields && HasId(v.fields);
      assert u == UpsertRecord(False, RecordData(u.data.id, u.data.data));
    case Delete(d) =>
  }

  /** Whatever is read from a log can be written back and read again unchanged. */
  lemma DecodedIsEncodable(v: Json)
    requires DecodeRecord(v).Some?
    ensures Encodable(DecodeRecord(v).value)
    ensures DecodeRecord(EncodeRecord(DecodeRecord(v).value)) == DecodeRecord(v)
  {
    RoundTrip(DecodeRecord(v).value);
  }

  /**
   * Why the round trip needs `Encodable`: an upsert whose payload has a
   * `"deleted": true` member is written as an object that reads back as a
   * tombstone for the same identifier.
   */
  lemma ReservedMarkerReadsAsTombstone(id: RecordId)
    ensures DecodeRecord(EncodeRecord(UpsertOf(id, map[DELETED_KEY := Bool(true)]))) == Some(DeleteOf(id))
  {
    var v := EncodeRecord(UpsertOf(id, map[DELETED_KEY := Bool(true)]));
    assert v.fields[DELETED_KEY] == Bool(true);
  }

  /** Any upsert whose payload holds `"deleted": true` and no "id" is written so that it reads back as a tombstone. */
  lemma MarkerPayloadReadsAsTombstone(id: RecordId, p: Fields)
    requires ID_KEY !in p && DELETED_KEY in p && p[DELETED_KEY] == Bool(true)
    ensures DecodeRecord(EncodeRecord(UpsertOf(id, p))) == Some(DeleteOf(id))
  {
    var v := EncodeRecord(UpsertOf(id, p));
    assert v.fields[DELETED_KEY] == Bool(true);
  }
}

=== FILE: replay.dfy ===
/**
 * What the log means, independently of any handle: a fresh handle that
 * reads it from the start. A handle is in sync with a log when catching up
 * with it would leave the same live and upsert maps as that fresh replay.
 * Writes made through a handle of records whose payload uses neither reserved
 * key keep it in sync with the log they produce, so the handle's views agree
 * with what any later reader rebuilds.
 */
module Replay {
  import opened Wrappers
  import opened Json
  import opened LogRecord
  import opened Views
  import opened Store

  predicate InSync(db: Database, log: Log)
  {
    db.offset <= |log| && Replayable(log) && Replayable(log[db.offset..]) &&
    LiveMap(db.history + DecodeLog(log[db.offset..])) == LiveMap(DecodeLog(log)) &&
    UpsertMap(db.history + DecodeLog(log[db.offset..])) == UpsertMap(DecodeLog(log))
  }

  /** A fresh handle folds in exactly the records of the log, in order. */
  lemma FreshReplay(log: Log)
    requires Replayable(log)
    ensures Reload(Open(), log).result.Ok?
    ensures Reload(Open(), log).db.offset == |log|
    ensures Reload(Open(), log).db.history == DecodeLog(log)
  {
    var db := Open();
    assert log[db.offset..] == log;
    CatchUp(db, log);
    assert [] + DecodeLog(log) == DecodeLog(log);
  }

  /** Catching up over a replayable tail folds in all of it. */
  lemma CatchUp(db: Database, log: Log)
    requires db.offset <= |log| && Replayable(log[db.offset..])
    ensures Reload(db, log).db.history == db.history + DecodeLog(log[db.offset..])
  {
    var d := Reload(db, log).db;
    assert FoldedIn(db, log, |log| - db.offset, d);
    var tail := log[db.offset..];
    assert log[db.offset..db.offset + (|log| - db.offset)] == tail;
    assert d.history == db.history + DecodeLog(tail);
  }

  /** A fresh handle that has read a whole log is in sync with it. */
  lemma FreshInSync(log: Log)
    requires Replayable(log)
    ensures InSync(Reload(Open(), log).db, log)
  {
    FreshReplay(log);
    var db := Reload(Open(), log).db;
    assert log[db.offset..] == [];
    assert db.history + DecodeLog(log[db.offset..]) == DecodeLog(log);
  }

  /** What the log says after the `k` chunks at `offset`, relative to what it says up to `offset`. */
  lemma TailSplit(log: Log, extra: Log, offset: nat)
    requires offset <= |log| && Replayable(log + extra)
    ensures Replayable(log) && Replayable(extra) && Replayable(log[offset..]) && Replayable((log + extra)[offset..])
    ensures DecodeLog((log + extra)[offset..]) == DecodeLog(log[offset..]) + DecodeLog(extra)
    ensures DecodeLog(log + extra) == DecodeLog(log) + DecodeLog(extra)
  {
    DecodeLogAppend(log, extra);
    assert log == log[..offset] + log[offset..];
    DecodeLogAppend(log[..offset], log[offset..]);
    assert (log + extra)[offset..] == log[offset..] + extra;
    DecodeLogAppend(log[offset..], extra);
  }

  /** Appends by anyone keep a handle in sync, as long as they replay. */
  lemma AppendKeepsSync(db: Database, log: Log, extra: Log)
    requires InSync(db, log) && Replayable(log + extra)
    ensures InSync(db, log + extra)
  {
    TailSplit(log, extra, db.offset);
    MapsAfter(db.history, DecodeLog(log[db.offset..]), DecodeLog(log), DecodeLog(extra));
  }

  /** If `h + t` and `full` agree on the maps, they still agree once both are followed by `e`. */
  lemma MapsAfter(h: History, t: History, full: History, e: History)
    requires LiveMap(h + t) == LiveMap(full) && UpsertMap(h + t) == UpsertMap(full)
    ensures LiveMap(h + (t + e)) == LiveMap(full + e) && UpsertMap(h + (t + e)) == UpsertMap(full + e)
  {
    assert h + (t + e) == (h + t) + e;
    SameMapsAfter(h + t, full, e);
  }

  /**
   * A write by an in-sync handle of an encodable record succeeds and leaves it
   * in sync with the extended log: the record it folded in is the one the new
   * line reads as, and reading that line again later changes nothing.
   * `MarkerPayloadDiverges` shows the restriction to encodable records is needed.
   */
  lemma WriteKeepsSync(db: Database, log: Log, r: Record)
    requires InSync(db, log) && Encodable(r) && r.Id() < MAX_ID
    ensures WriteRecord(db, log, [], r).result.Ok?
    ensures InSync(WriteRecord(db, log, [], r).db, WriteRecord(db, log, [], r).log)
    ensures LiveMap(WriteRecord(db, log, [], r).db.history) == LiveMap(DecodeLog(WriteRecord(db, log, [], r).log))
    ensures UpsertMap(WriteRecord(db, log, [], r).db.history) == UpsertMap(DecodeLog(WriteRecord(db, log, [], r).log))
  {
    var w := WriteRecord(db, log, [], r);
    assert log + [] == log;
    WrittenKeepsSync(db, log, r, w.db, w.log);
  }

  /** The handle `d` and log `written` that a write of `r` from an in-sync `db` produces are in sync. */
  lemma WrittenKeepsSync(db: Database, log: Log, r: Record, d: Database, written: Log)
    requires InSync(db, log) && Encodable(r) && r.Id() < MAX_ID
    requires d.offset == |log| && d.history == db.history + DecodeLog(log[db.offset..]) + [r]
    requires written == log + [Line(r)]
    ensures InSync(d, written)
    ensures LiveMap(d.history) == LiveMap(DecodeLog(written)) && UpsertMap(d.history) == UpsertMap(DecodeLog(written))
  {
    var line := Line(r);
    RoundTrip(r);
    assert Parse(line) == Some(r);
    assert Replayable([line]);
    DecodeLogAppend(log, [line]);
    assert DecodeLog([line]) == [r];
    var caught := db.history + DecodeLog(log[db.offset..]);
    var tail := written[d.offset..];
    assert tail == [line];
    assert d.history + DecodeLog(tail) == caught + [r, r];
    OwnLineReplays(caught, DecodeLog(log), r);
  }

  /**
   * Why `WriteKeepsSync` asks for an encodable record: an upsert whose payload
   * holds `"deleted": true` is written, and the writer sees its id live, but
   * the line it wrote reads back as a tombstone, so every reader of the log
   * sees the id deleted.
   */
  lemma MarkerPayloadDiverges(db: Database, log: Log, id: RecordId, p: Fields)
    requires InSync(db, log) && id < MAX_ID
    requires ID_KEY !in p && DELETED_KEY in p && p[DELETED_KEY] == Bool(true)
    ensures WriteRecord(db, log, [], UpsertOf(id, p)).result.Ok?
    ensures id in LiveMap(WriteRecord(db, log, [], UpsertOf(id, p)).db.history)
    ensures Replayable(WriteRecord(db, log, [], UpsertOf(id, p)).log)
    ensures id !in LiveMap(DecodeLog(WriteRecord(db, log, [], UpsertOf(id, p)).log))
  {
    var r := UpsertOf(id, p);
    var w := WriteRecord(db, log, [], r);
    var line := Line(r);
    MarkerPayloadReadsAsTombstone(id, p);
    assert Parse(line) == Some(DeleteOf(id));
    assert Replayable([line]);
    DecodeLogAppend(log, [line]);
    assert DecodeLog([line]) == [DeleteOf(id)];
    assert log + [] == log;
    assert w.log == log + [line];
    var caught := db.history + DecodeLog(log[db.offset..]);
    assert w.db.history == caught + [r];
    Snoc(caught, r);
    TombstoneReplay(DecodeLog(log), DecodeLog(w.log), id);
  }

  /** Folding in a record twice, then once on the other side, keeps two agreeing histories agreeing. */
  lemma OwnLineReplays(caught: History, replayed: History, r: Record)
    requires LiveMap(caught) == LiveMap(replayed) && UpsertMap(caught) == UpsertMap(replayed)
    ensures LiveMap(caught + [r, r]) == LiveMap(replayed + [r]) == LiveMap(caught + [r])
    ensures UpsertMap(caught + [r, r]) == UpsertMap(replayed + [r]) == UpsertMap(caught + [r])
  {
    RepeatIsInvisible(caught, r);
    SameMapsAfter(caught, replayed, [r]);
  }

  /**
   * The single-writer guarantee: after catching up, an in-sync handle shows
   * exactly the views a fresh handle rebuilds from the same log.
   */
  lemma SyncedViewsMatchFresh(db: Database, log: Log)
    requires InSync(db, log)
    ensures Reload(db, log).result.Ok?
    ensures Records(Reload(db, log).db.history) == Records(Reload(Open(), log).db.history)
    ensures RecordsIncludeDeleted(Reload(db, log).db.history) == RecordsIncludeDeleted(Reload(Open(), log).db.history)
  {
    var s := Reload(db, log);
    CatchUp(db, log);
    FreshReplay(log);
    ViewsFollowReplay(s.db.history, DecodeLog(log));
  }

  /** After catching up, an in-sync handle's maps are the maps of the log. */
  lemma SyncedMapsMatchLog(db: Database, log: Log)
    requires InSync(db, log)
    ensures Reload(db, log).result.Ok?
    ensures LiveMap(Reload(db, log).db.history) == LiveMap(DecodeLog(log))
    ensures UpsertMap(Reload(db, log).db.history) == UpsertMap(DecodeLog(log))
  {
    CatchUp(db, log);
  }

  /** Reloading again straight after a successful reload reads nothing more. */
  lemma ReloadIdempotent(db: Database, log: Log)
    requires Reload(db, log).result.Ok?
    ensures Reload(Reload(db, log).db, log) == Reload(db, log)
  {
    var s := Reload(db, log);
    assert s.db.offset >= |log|;
    assert s.result == Ok(()) by {
      match s.result.value
      case () =>
    }
  }

  /** A value that stopped a reload stops every retry at the same place, until the log changes. */
  lemma ParseErrorPersists(db: Database, log: Log)
    requires Reload(db, log).result == Err(ParseError)
    ensures Reload(Reload(db, log).db, log) == Reload(db, log)
  {
  }
}

=== FILE: scenarios.dfy ===
/**
 * The usage scenarios of src/tests.rs, stated for arbitrary payloads that
 * avoid the reserved keys. Each scenario is a sequence of operations on
 * handles sharing one log, with the outcome the source expects of it.
 */
module Scenarios {
  import opened Wrappers
  import opened Json
  import opened LogRecord
  import opened Views
  import opened Store
  import opened Replay

  /** A payload that does not use the keys the record layer reserves. */
  predicate Plain(p: Fields)
  {
    ID_KEY !in p && DELETED_KEY !in p
  }

  /** Records whose lines read back as themselves and fold in without overflow. */
  predicate Writable(h: History)
  {
    forall i :: 0 <= i < |h| ==> Encodable(h[i]) && h[i].Id() < MAX_ID
  }

  lemma WritableSnoc(h: History, r: Record)
    requires Writable(h) && Encodable(r) && r.Id() < MAX_ID
    ensures Writable(h + [r])
  {
    assert forall i :: 0 <= i < |h| ==> (h + [r])[i] == h[i];
  }

  /** The lines of a sequence of records, in order. */
  function Lines(h: History): (log: Log)
    ensures |log| == |h|
    ensures forall i :: 0 <= i < |h| ==> log[i] == Line(h[i])
  {
    if |h| == 0 then [] else [Line(h[0])] + Lines(h[1..])
  }

  /** Lines written for encodable records replay to exactly those records. */
  lemma LinesReplay(h: History)
    requires Writable(h)
    ensures Replayable(Lines(h))
    ensures DecodeLog(Lines(h)) == h
  {
    var log := Lines(h);
    forall i | 0 <= i < |h|
      ensures Parse(log[i]) == Some(h[i])
    {
      RoundTrip(h[i]);
    }
    assert Replayable(log);
    var d := DecodeLog(log);
    DecodeLogAt(log);
    assert forall i :: 0 <= i < |h| ==> Parse(log[i]) == Some(d[i]);
  }

  /** The live map of a history that holds just one upsert. */
  lemma SingleUpsert(id: RecordId, p: Fields)
    ensures LiveMap([UpsertOf(id, p)]) == map[id := p]
    ensures RecordCount([UpsertOf(id, p)]) == 1
  {
    Snoc([], UpsertOf(id, p));
    assert [] + [UpsertOf(id, p)] == [UpsertOf(id, p)];
  }

  /** The first insert into an empty log gets identifier 1 and leaves its writer in sync. */
  lemma FirstInsert(p: Fields)
    requires Plain(p)
    ensures var a := Insert(Open(), [], [], p);
      a.result == Ok(1) && a.db.history == [UpsertOf(1, p)] && a.log == Lines([UpsertOf(1, p)]) &&
      InSync(a.db, a.log)
  {
    InsertIntoEmpty(Open(), [], [], p, Insert(Open(), [], [], p));
  }

  /** What any outcome of `insert` on an empty log, as `Inserted` describes it, amounts to. */
  lemma InsertIntoEmpty(db: Database, log: Log, foreign: Log, p: Fields, a: Write<RecordId>)
    requires Plain(p) && db == Open() && log == [] && foreign == [] && Inserted(db, log, foreign, p, a)
    ensures a.result == Ok(1) && a.db.history == [UpsertOf(1, p)] && a.log == Lines([UpsertOf(1, p)]) &&
            InSync(a.db, a.log)
  {
    var u := UpsertOf(1, p);
    assert log[0..] == [] && Replayable(log[0..]);
    assert DecodeLog(log[0..]) == [];
    assert a.db.history == [] + [] + [u];
    EmptyInSync(db, log);
    InsertedStep(db, [], p, a);
    assert [] + [u] == [u];
  }

  /** A fresh handle is in sync with the empty log, which holds the lines of no records. */
  lemma EmptyInSync(db: Database, log: Log)
    requires db == Open() && log == []
    ensures Writable([]) && Lines([]) == log && InSync(db, log)
  {
    assert log[db.offset..] == [] && db.history + [] == [];
  }

  /** A fresh handle over the lines of some encodable records has folded in exactly those records. */
  lemma FreshOverLines(h: History)
    requires Writable(h)
    ensures Reload(Open(), Lines(h)).result.Ok?
    ensures Reload(Open(), Lines(h)).db.offset == |h|
    ensures Reload(Open(), Lines(h)).db.history == h
  {
    LinesReplay(h);
    FreshReplay(Lines(h));
  }

  /** A handle in sync with the one-upsert log deletes the record: one tombstone line, nothing live any more. */
  lemma DeleteOnlyRecord(b: Database, p: Fields)
    requires Plain(p) && InSync(b, Lines([UpsertOf(1, p)]))
    ensures var del := Store.Delete(b, Lines([UpsertOf(1, p)]), [], 1);
      del.result.Ok? && del.log == Lines([UpsertOf(1, p), DeleteOf(1)]) && RecordCount(del.db.history) == 0
  {
    var u := UpsertOf(1, p);
    assert Writable([u]);
    DeleteStep(b, [u], 1);
    assert [u] + [DeleteOf(1)] == [u, DeleteOf(1)];
    InsertDeleteEmpty(p);
  }

  /** The insert-then-delete log has nothing live. */
  lemma InsertDeleteEmpty(p: Fields)
    requires Plain(p)
    ensures Lines([UpsertOf(1, p)]) + [Line(DeleteOf(1))] == Lines([UpsertOf(1, p), DeleteOf(1)])
    ensures Replayable(Lines([UpsertOf(1, p), DeleteOf(1)]))
    ensures DecodeLog(Lines([UpsertOf(1, p), DeleteOf(1)])) == [UpsertOf(1, p), DeleteOf(1)]
    ensures LiveMap([UpsertOf(1, p), DeleteOf(1)]) == map[]
  {
    var u := UpsertOf(1, p);
    var one := [u];
    assert one + [DeleteOf(1)] == [u, DeleteOf(1)];
    assert Writable(one);
    WritableSnoc(one, DeleteOf(1));
    LinesReplay(one + [DeleteOf(1)]);
    LinesSnoc(one, DeleteOf(1));
    SingleUpsert(1, p);
    SnocDelete(one, map[1 := p], 1);
    assert map[1 := p] - {1} == map[];
  }

  /**
   * `file_test`: a handle on an empty file inserts a record and gets
   * identifier 1; a handle opened afterwards reads the record back.
   */
  lemma InsertThenReopen(p: Fields)
    requires Plain(p)
    ensures Insert(Open(), [], [], p).result == Ok(1)
    ensures RecordCount(Insert(Open(), [], [], p).db.history) == 1
    ensures var log1 := Insert(Open(), [], [], p).log;
      Reload(Open(), log1).result.Ok? &&
      RecordCount(Reload(Open(), log1).db.history) == 1 &&
      Get(Reload(Open(), log1).db.history, 1) == Some(RecordData(1, p))
  {
    FirstInsert(p);
    SingleUpsert(1, p);
    ReopenOne(p);
  }

  /** A fresh handle over the one-upsert log sees that one record. */
  lemma ReopenOne(p: Fields)
    requires Plain(p)
    ensures var s := Reload(Open(), Lines([UpsertOf(1, p)]));
      s.result.Ok? && RecordCount(s.db.history) == 1 && Get(s.db.history, 1) == Some(RecordData(1, p))
  {
    var u := UpsertOf(1, p);
    assert Writable([u]);
    FreshOverLines([u]);
    SingleUpsert(1, p);
  }

  /**
   * The sequential core of `parallel_write_test`: handle A inserts into an
   * empty log; handle B reloads, sees the record and deletes it; A reloads
   * and sees nothing live.
   */
  lemma InsertThenDeleteAcrossHandles(p: Fields)
    requires Plain(p)
    ensures var a := Insert(Open(), [], [], p);
      var b := Reload(Open(), a.log).db;
      var del := Store.Delete(b, a.log, [], 1);
      RecordCount(b.history) == 1 && Get(b.history, 1) == Some(RecordData(1, p)) &&
      del.result.Ok? && RecordCount(del.db.history) == 0 &&
      Reload(a.db, del.log).result.Ok? && RecordCount(Reload(a.db, del.log).db.history) == 0
  {
    FirstInsert(p);
    var a := Insert(Open(), [], [], p);
    ReopenOne(p);
    SecondHandleDeletes(p);
    FirstHandleCatchesUp(a.db, p);
  }

  /** Handle B opens the one-upsert log and deletes the record. */
  lemma SecondHandleDeletes(p: Fields)
    requires Plain(p)
    ensures var b := Reload(Open(), Lines([UpsertOf(1, p)])).db;
      var del := Store.Delete(b, Lines([UpsertOf(1, p)]), [], 1);
      del.result.Ok? && del.log == Lines([UpsertOf(1, p), DeleteOf(1)]) && RecordCount(del.db.history) == 0
  {
    var log := Lines([UpsertOf(1, p)]);
    assert Writable([UpsertOf(1, p)]);
    LinesReplay([UpsertOf(1, p)]);
    FreshInSync(log);
    DeleteOnlyRecord(Reload(Open(), log).db, p);
  }

  /** Handle A, in sync with the one-upsert log, catches up with B's tombstone and sees nothing live. */
  lemma FirstHandleCatchesUp(a: Database, p: Fields)
    requires Plain(p) && InSync(a, Lines([UpsertOf(1, p)]))
    ensures var log := Lines([UpsertOf(1, p), DeleteOf(1)]);
      Reload(a, log).result.Ok? && RecordCount(Reload(a, log).db.history) == 0
  {
    InsertDeleteEmpty(p);
    AppendKeepsSync(a, Lines([UpsertOf(1, p)]), [Line(DeleteOf(1))]);
    SyncedMapsMatchLog(a, Lines([UpsertOf(1, p), DeleteOf(1)]));
  }

  /** The five records of the log in `read_test`, for payloads `p1` to `p4`. */
  function ReadTestHistory(p1: Fields, p2: Fields, p3: Fields, p4: Fields): History
  {
    [UpsertOf(1, p1), UpsertOf(2, p2), UpsertOf(1, p3), UpsertOf(3, p4), DeleteOf(2)]
  }

  lemma ReadTestWritable(p1: Fields, p2: Fields, p3: Fields, p4: Fields)
    requires Plain(p1) && Plain(p2) && Plain(p3) && Plain(p4)
    ensures Writable(ReadTestHistory(p1, p2, p3, p4))
  {
    var h := ReadTestHistory(p1, p2, p3, p4);
    assert h[0] == UpsertOf(1, p1) && h[1] == UpsertOf(2, p2) && h[2] == UpsertOf(1, p3);
    assert h[3] == UpsertOf(3, p4) && h[4] == DeleteOf(2);
  }

  lemma ReadTestLive(p1: Fields, p2: Fields, p3: Fields, p4: Fields)
    ensures LiveMap(ReadTestHistory(p1, p2, p3, p4)) == map[1 := p3, 3 := p4]
  {
    var h := ReadTestHistory(p1, p2, p3, p4);
    var m0: map<RecordId, Fields> := map[];
    var m1 := m0[1 := p1];
    var m2 := m1[2 := p2];
    var m3 := m2[1 := p3];
    var m4 := m3[3 := p4];
    var s0: History := [];
    var s1 := s0 + [UpsertOf(1, p1)];
    var s2 := s1 + [UpsertOf(2, p2)];
    var s3 := s2 + [UpsertOf(1, p3)];
    var s4 := s3 + [UpsertOf(3, p4)];
    SnocUpsert(s0, m0, 1, p1);
    SnocUpsert(s1, m1, 2, p2);
    SnocUpsert(s2, m2, 1, p3);
    SnocUpsert(s3, m3, 3, p4);
    SnocDelete(s4, m4, 2);
    assert s4 + [DeleteOf(2)] == h;
    assert m4 - {2} == map[1 := p3, 3 := p4];
  }

  /**
   * `read_test`: reading the five-line log yields the latest payload of
   * record 1 and record 3, in identifier order; record 2 is deleted.
   */
  lemma ReadTest(p1: Fields, p2: Fields, p3: Fields, p4: Fields)
    requires Plain(p1) && Plain(p2) && Plain(p3) && Plain(p4)
    ensures var s := Reload(Open(), Lines(ReadTestHistory(p1, p2, p3, p4)));
      s.result.Ok? && Records(s.db.history) == [RecordData(1, p3), RecordData(3, p4)]
  {
    var h := ReadTestHistory(p1, p2, p3, p4);
    ReadTestWritable(p1, p2, p3, p4);
    FreshOverLines(h);
    ReadTestRecords(p1, p2, p3, p4);
  }

  lemma ReadTestRecords(p1: Fields, p2: Fields, p3: Fields, p4: Fields)
    ensures Records(ReadTestHistory(p1, p2, p3, p4)) == [RecordData(1, p3), RecordData(3, p4)]
  {
    ReadTestLive(p1, p2, p3, p4);
    TwoLive(ReadTestHistory(p1, p2, p3, p4), 1, p3, 3, p4);
  }

  /** A history with exactly two live records shows them in identifier order. */
  lemma TwoLive(h: History, a: RecordId, pa: Fields, b: RecordId, pb: Fields)
    requires a < b && LiveMap(h) == map[a := pa, b := pb]
    ensures Records(h) == [RecordData(a, pa), RecordData(b, pb)]
  {
    TwoEntries(Records(h), LiveMap(h), a, pa, b, pb);
  }

  /** The only strictly ascending listing of a two-entry map. */
  lemma TwoEntries(v: seq<RecordData>, m: map<RecordId, Fields>, a: RecordId, pa: Fields, b: RecordId, pb: Fields)
    requires a < b && m == map[a := pa, b := pb]
    requires StrictlyAscending(v) && forall x :: x in v <==> x.id in m && m[x.id] == x.data
    ensures v == [RecordData(a, pa), RecordData(b, pb)]
  {
    var expected := [RecordData(a, pa), RecordData(b, pb)];
    forall x
      ensures x in expected <==> x in v
    {
      assert x in v <==> x.id in m && m[x.id] == x.data;
    }
    AscendingDetermined(v, expected);
  }

  /**
   * `partial_read_test`: a log whose last line is cut short does not
   * reload; the complete lines before it are folded in and the offset rests
   * on the broken line, so a later reload retries it.
   */
  lemma PartialReadTest(p1: Fields, p2: Fields)
    requires Plain(p1) && Plain(p2)
    ensures var s := Reload(Open(), Lines([UpsertOf(1, p1), UpsertOf(2, p2)]) + [Broken]);
      s.result == Err(ParseError) && s.db.offset == 2 && s.db.history == [UpsertOf(1, p1), UpsertOf(2, p2)]
  {
    var h := [UpsertOf(1, p1), UpsertOf(2, p2)];
    var log := Lines(h) + [Broken];
    assert Encodable(h[0]) && Encodable(h[1]);
    LinesReplay(h);
    assert log[0] == Line(h[0]) && log[1] == Line(h[1]) && log[2] == Broken;
    assert Parse(log[0]) == Some(h[0]) && Parse(log[1]) == Some(h[1]) && Parse(log[2]).None?;
    assert log[0..2] == Lines(h);
    ReloadStopsAtBroken(Open(), log, 2);
  }

  /** Lines are written one record at a time. */
  lemma LinesSnoc(h: History, r: Record)
    ensures Lines(h) + [Line(r)] == Lines(h + [r])
  {
  }

  /** A handle in sync with the lines of `h` writes `r`: the log and the handle's maps now follow `h + [r]`. */
  lemma SyncedWrite(db: Database, h: History, r: Record)
    requires Writable(h)
    requires InSync(db, Lines(h)) && Encodable(r) && r.Id() < MAX_ID
    ensures var w := WriteRecord(db, Lines(h), [], r);
      w.result.Ok? && w.log == Lines(h + [r]) && InSync(w.db, w.log) &&
      LiveMap(w.db.history) == LiveMap(h + [r]) && UpsertMap(w.db.history) == UpsertMap(h + [r])
  {
    WriteKeepsSync(db, Lines(h), r);
    LinesSnoc(h, r);
    assert Lines(h) + [] == Lines(h);
    WritableSnoc(h, r);
    LinesReplay(h + [r]);
  }

  /** The resolver of `write_test`: keep the payload, with field "c" set to 123. */
  function SetC(current: Option<Fields>): Option<Fields>
  {
    match current
    case Some(d) => Some(d["c" := Num(123)])
    case None => None
  }

  /** The log of `write_test` after its three writes. */
  function WriteTestHistory(p1: Fields, p2: Fields, p3: Fields, p4: Fields, p5: Fields): History
  {
    ReadTestHistory(p1, p2, p3, p4) + [UpsertOf(4, p5)] + [DeleteOf(1)] + [UpsertOf(3, p4["c" := Num(123)])]
  }

  /** Identifiers 1, 2, 1, 3 and 2 put the allocator at 4. */
  lemma ReadTestNext(p1: Fields, p2: Fields, p3: Fields, p4: Fields)
    ensures NextAfter(1, ReadTestHistory(p1, p2, p3, p4)) == 4
  {
    var h := ReadTestHistory(p1, p2, p3, p4);
    assert h[0].Id() == 1 && h[1].Id() == 2 && h[2].Id() == 1 && h[3].Id() == 3 && h[4].Id() == 2;
    assert h[1..][1..] == h[2..] && h[2..][1..] == h[3..] && h[3..][1..] == h[4..] && h[4..][1..] == [];
    calc {
      NextAfter(1, h);
      NextAfter(2, h[1..]);
      NextAfter(3, h[2..]);
      NextAfter(3, h[3..]);
      NextAfter(4, h[4..]);
      NextAfter(4, []);
    }
  }

  /** Reading the `read_test` log with a fresh handle: all five records, the allocator at 4, in sync. */
  lemma WriteTestLoad(p1: Fields, p2: Fields, p3: Fields, p4: Fields)
    requires Plain(p1) && Plain(p2) && Plain(p3) && Plain(p4)
    ensures var log := Lines(ReadTestHistory(p1, p2, p3, p4));
      var s := Reload(Open(), log);
      s.result.Ok? && s.db.history == ReadTestHistory(p1, p2, p3, p4) && s.db.nextRecordId == 4 &&
      InSync(s.db, log)
  {
    var h := ReadTestHistory(p1, p2, p3, p4);
    var log := Lines(h);
    ReadTestWritable(p1, p2, p3, p4);
    FreshOverLines(h);
    LinesReplay(h);
    FreshInSync(log);
    var s := Reload(Open(), log);
    ReloadNext(Open(), log);
    assert log[0..s.db.offset] == log;
    ReadTestNext(p1, p2, p3, p4);
  }

  /** One more upsert, seen through the live map alone. */
  lemma SnocUpsert(h: History, m: map<RecordId, Fields>, id: RecordId, d: Fields)
    requires LiveMap(h) == m
    ensures LiveMap(h + [UpsertOf(id, d)]) == m[id := d]
  {
    Snoc(h, UpsertOf(id, d));
  }

  /** One more tombstone, seen through the live map alone. */
  lemma SnocDelete(h: History, m: map<RecordId, Fields>, id: RecordId)
    requires LiveMap(h) == m
    ensures LiveMap(h + [DeleteOf(id)]) == m - {id}
  {
    Snoc(h, DeleteOf(id));
  }

  /** The live map after the delete in `write_test`. */
  lemma WriteTestLiveBeforeUpsert(p1: Fields, p2: Fields, p3: Fields, p4: Fields, p5: Fields)
    ensures LiveMap(ReadTestHistory(p1, p2, p3, p4) + [UpsertOf(4, p5)] + [DeleteOf(1)]) == map[3 := p4, 4 := p5]
  {
    var h := ReadTestHistory(p1, p2, p3, p4);
    var m: map<RecordId, Fields> := map[1 := p3, 3 := p4];
    ReadTestLive(p1, p2, p3, p4);
    var h1 := h + [UpsertOf(4, p5)];
    SnocUpsert(h, m, 4, p5);
    SnocDelete(h1, m[4 := p5], 1);
    assert m[4 := p5] - {1} == map[3 := p4, 4 := p5];
  }

  /** `insert` by a handle in sync with the lines of `h`: the allocator's value becomes the new record's identifier. */
  lemma InsertStep(db: Database, h: History, p: Fields)
    requires Writable(h) && InSync(db, Lines(h)) && Plain(p) && db.nextRecordId < MAX_ID
    ensures var a := Insert(db, Lines(h), [], p);
      var r := UpsertOf(db.nextRecordId, p);
      a.result == Ok(db.nextRecordId) && a.log == Lines(h + [r]) && InSync(a.db, a.log) &&
      LiveMap(a.db.history) == LiveMap(h + [r]) && UpsertMap(a.db.history) == UpsertMap(h + [r])
  {
    InsertedStep(db, h, p, Insert(db, Lines(h), [], p));
  }

  /** `InsertStep` for any outcome that `Inserted` describes. */
  lemma InsertedStep(db: Database, h: History, p: Fields, a: Write<RecordId>)
    requires Writable(h) && InSync(db, Lines(h)) && Plain(p) && db.nextRecordId < MAX_ID
    requires Inserted(db, Lines(h), [], p, a)
    ensures var r := UpsertOf(db.nextRecordId, p);
      a.result == Ok(db.nextRecordId) && a.log == Lines(h + [r]) && InSync(a.db, a.log) &&
      LiveMap(a.db.history) == LiveMap(h + [r]) && UpsertMap(a.db.history) == UpsertMap(h + [r])
  {
    var r := UpsertOf(db.nextRecordId, p);
    var log := Lines(h);
    assert a.result == Ok(db.nextRecordId);
    assert log + [] == log;
    WrittenKeepsSync(db, log, r, a.db, a.log);
    LinesSnoc(h, r);
    WritableSnoc(h, r);
    LinesReplay(h + [r]);
  }

  /** `delete` by a handle in sync with the lines of `h`: one tombstone line. */
  lemma DeleteStep(db: Database, h: History, id: RecordId)
    requires Writable(h) && InSync(db, Lines(h)) && id < MAX_ID
    ensures var b := Store.Delete(db, Lines(h), [], id);
      b.result.Ok? && b.log == Lines(h + [DeleteOf(id)]) && InSync(b.db, b.log) &&
      LiveMap(b.db.history) == LiveMap(h + [DeleteOf(id)]) && UpsertMap(b.db.history) == UpsertMap(h + [DeleteOf(id)])
  {
    SyncedWrite(db, h, DeleteOf(id));
  }

  /** `upsert` by a handle in sync with the lines of `h`, whose resolver yields `d`: one upsert line. */
  lemma UpsertStep(db: Database, h: History, id: RecordId, d: Fields, resolve: Option<Fields> -> Option<Fields>)
    requires Writable(h) && InSync(db, Lines(h)) && Plain(d) && id < MAX_ID
    requires resolve(Current(db.history, id)) == Some(d)
    ensures var c := Store.Upsert(db, Lines(h), [], id, resolve);
      c.result.Ok? && c.log == Lines(h + [UpsertOf(id, d)]) && InSync(c.db, c.log) &&
      LiveMap(c.db.history) == LiveMap(h + [UpsertOf(id, d)]) && UpsertMap(c.db.history) == UpsertMap(h + [UpsertOf(id, d)])
  {
    SyncedWrite(db, h, UpsertOf(id, d));
  }

  /**
   * `write_test`: after reading the `read_test` log, insert a payload (it
   * gets identifier 4, above the deleted 2), delete record 1, and set field
   * "c" of record 3. Every write succeeds, the live view is record 3 with
   * the new field then record 4, and the log re-reads as the five original
   * records followed by the three written ones.
   */
  lemma WriteTest(p1: Fields, p2: Fields, p3: Fields, p4: Fields, p5: Fields)
    requires Plain(p1) && Plain(p2) && Plain(p3) && Plain(p4) && Plain(p5)
    ensures var db := Reload(Open(), Lines(ReadTestHistory(p1, p2, p3, p4))).db;
      var a := Insert(db, Lines(ReadTestHistory(p1, p2, p3, p4)), [], p5);
      var b := Store.Delete(a.db, a.log, [], 1);
      var c := Store.Upsert(b.db, b.log, [], 3, SetC);
      a.result == Ok(4) && b.result.Ok? && c.result.Ok? &&
      Records(c.db.history) == [RecordData(3, p4["c" := Num(123)]), RecordData(4, p5)] &&
      Replayable(c.log) && DecodeLog(c.log) == WriteTestHistory(p1, p2, p3, p4, p5)
  {
    var h0 := ReadTestHistory(p1, p2, p3, p4);
    var db := Reload(Open(), Lines(h0)).db;
    WriteTestInsertDelete(p1, p2, p3, p4, p5);
    var a := Insert(db, Lines(h0), [], p5);
    var b := Store.Delete(a.db, a.log, [], 1);
    WriteTestSetC(b.db, h0 + [UpsertOf(4, p5)] + [DeleteOf(1)], p4, p5);
  }

  /** The last write of `write_test`, by a handle in sync with the log after the delete. */
  lemma WriteTestSetC(b: Database, h2: History, p4: Fields, p5: Fields)
    requires Plain(p4) && Writable(h2) && InSync(b, Lines(h2))
    requires LiveMap(b.history) == map[3 := p4, 4 := p5] && LiveMap(h2) == map[3 := p4, 4 := p5]
    ensures var c := Store.Upsert(b, Lines(h2), [], 3, SetC);
      var h3 := h2 + [UpsertOf(3, p4["c" := Num(123)])];
      c.result.Ok? && Records(c.db.history) == [RecordData(3, p4["c" := Num(123)]), RecordData(4, p5)] &&
      Replayable(c.log) && DecodeLog(c.log) == h3
  {
    var d := p4["c" := Num(123)];
    var u3 := UpsertOf(3, d);
    assert Current(b.history, 3) == Some(p4);
    UpsertStep(b, h2, 3, d, SetC);
    var c := Store.Upsert(b, Lines(h2), [], 3, SetC);
    WritableSnoc(h2, u3);
    LinesReplay(h2 + [u3]);
    var m: map<RecordId, Fields> := map[3 := p4, 4 := p5];
    SnocUpsert(h2, m, 3, d);
    ReplaceFirst(3, p4, 4, p5, d);
    TwoLive(c.db.history, 3, d, 4, p5);
  }

  lemma ReplaceFirst(a: RecordId, pa: Fields, b: RecordId, pb: Fields, d: Fields)
    requires a != b
    ensures map[a := pa, b := pb][a := d] == map[a := d, b := pb]
  {
  }

  /** The first two writes of `write_test`: the insert gets identifier 4, then record 1 is deleted. */
  lemma WriteTestInsertDelete(p1: Fields, p2: Fields, p3: Fields, p4: Fields, p5: Fields)
    requires Plain(p1) && Plain(p2) && Plain(p3) && Plain(p4) && Plain(p5)
    ensures var h0 := ReadTestHistory(p1, p2, p3, p4);
      var db := Reload(Open(), Lines(h0)).db;
      var a := Insert(db, Lines(h0), [], p5);
      var b := Store.Delete(a.db, a.log, [], 1);
      var h2 := h0 + [UpsertOf(4, p5)] + [DeleteOf(1)];
      a.result == Ok(4) && b.result.Ok? && b.log == Lines(h2) && InSync(b.db, b.log) &&
      LiveMap(b.db.history) == map[3 := p4, 4 := p5] && LiveMap(h2) == map[3 := p4, 4 := p5] && Writable(h2)
  {
    var h0 := ReadTestHistory(p1, p2, p3, p4);
    WriteTestLoad(p1, p2, p3, p4);
    ReadTestWritable(p1, p2, p3, p4);
    var db := Reload(Open(), Lines(h0)).db;
    InsertStep(db, h0, p5);
    var a := Insert(db, Lines(h0), [], p5);
    var h1 := h0 + [UpsertOf(4, p5)];
    WritableSnoc(h0, UpsertOf(4, p5));
    DeleteStep(a.db, h1, 1);
    WritableSnoc(h1, DeleteOf(1));
    WriteTestLiveBeforeUpsert(p1, p2, p3, p4, p5);
  }
}

=== FILE: store.dfy ===
/**
 * The storage engine of src/database.rs: a handle that replays an append-only
 * log into an in-memory history and appends to it after catching up.
 *
 * The file is abstracted to the sequence of JSON values it holds, one chunk
 * per value; the handle's byte offset becomes an index into that sequence.
 * A chunk is either a complete JSON value or bytes the JSON reader rejects
 * (malformed, or cut short by a writer that has not finished its line).
 * Appends by other writers are parameters of the operations that can observe
 * them.
 */
module Store {
  import opened Wrappers
  import opened Json
  import opened LogRecord
  import opened Views

  datatype Chunk = Complete(value: Json) | Broken

  type Log = seq<Chunk>

  /** `Database`: the history, the offset up to which the log has been read, and the identifier allocator. */
  datatype Database = Database(history: History, offset: nat, nextRecordId: RecordId)

  datatype Error =
    | ParseError   // the value at the offset is not a record, or not a whole JSON value yet
    | ExpectedEof  // the file grew between the catch-up reload and the end-of-file check
    | IdOverflow   // `id + 1` overflowed `u32`, which panics in debug builds

  /** The state after an operation that only reads the log. */
  datatype Step<T> = Step(db: Database, result: Result<T, Error>)

  /** The state and the file after an operation that may append to the log. */
  datatype Write<T> = Write(db: Database, log: Log, result: Result<T, Error>)

  /** The allocator is positive and ahead of every identifier in the history. */
  predicate Inv(db: Database)
  {
    1 <= db.nextRecordId && forall i :: 0 <= i < |db.history| ==> db.history[i].Id() < db.nextRecordId
  }

  /** `Database::new`: an empty handle that starts reading at the stream's current position. */
  function New(start: nat): (db: Database)
    ensures Inv(db) && db.offset == start
    ensures db.history == [] && db.nextRecordId == 1
    ensures Records(db.history) == [] && RecordsIncludeDeleted(db.history) == []
  {
    Database([], start, 1)
  }

  /** `Database::open`: an empty handle that reads the file from its start. */
  function Open(): (db: Database)
    ensures Inv(db) && db.offset == 0
    ensures db.history == [] && db.nextRecordId == 1
    ensures Records(db.history) == [] && RecordsIncludeDeleted(db.history) == []
  {
    New(0)
  }

  // ---------------------------------------------------------------------------
  // Reading

  /** The record a chunk reads as, if any. */
  function Parse(c: Chunk): Option<Record>
  {
    if c.Complete? then DecodeRecord(c.value) else None
  }

  /**
   * Whatever is read from the log can be written back, and the line written
   * reads as the same record; an unreadable chunk reads as nothing.
   */
  lemma ReadBack(c: Chunk)
    ensures c.Broken? ==> Parse(c).None?
    ensures Parse(c).Some? ==> Encodable(Parse(c).value) && Parse(Line(Parse(c).value)) == Parse(c)
  {
    if Parse(c).Some? {
      DecodedIsEncodable(c.value);
    }
  }

  /**
   * The value `write_record` appends for `r`. An upsert whose payload has
   * its own "id" member is serialized with that key twice, and the reader
   * rejects the duplicate; JSON objects here cannot hold a key twice, so
   * that value is the unreadable chunk.
   */
  function Line(r: Record): (c: Chunk)
    ensures Encodable(r) ==> c.Complete? && DecodeRecord(c.value) == Some(r)
    ensures r.Upsert? && ID_KEY in r.upsert.data.data ==> c.Broken?
  {
    if r.Upsert? && ID_KEY in r.upsert.data.data then Broken
    else
      if Encodable(r) then RoundTrip(r); Complete(EncodeRecord(r))
      else Complete(EncodeRecord(r))
  }

  /** Every chunk reads as a record that can be folded in without overflowing the allocator. */
  predicate Replayable(cs: Log)
  {
    forall i :: 0 <= i < |cs| ==> Parse(cs[i]).Some? && Parse(cs[i]).value.Id() < MAX_ID
  }

  /** The records of a replayable run of chunks, in order. */
  function DecodeLog(cs: Log): (h: History)
    requires Replayable(cs)
    ensures |h| == |cs|
  {
    if |cs| == 0 then []
    else [Parse(cs[0]).value] + DecodeLog(cs[1..])
  }

  /** Each record of a decoded run is what its chunk reads as. */
  lemma {:induction false} DecodeLogAt(cs: Log)
    requires Replayable(cs)
    ensures forall i :: 0 <= i < |cs| ==> Parse(cs[i]) == Some(DecodeLog(cs)[i])
    decreases |cs|
  {
    if |cs| > 0 {
      DecodeLogAt(cs[1..]);
      assert forall i :: 1 <= i < |cs| ==> cs[i] == cs[1..][i - 1];
    }
  }

  /** A log replays exactly when both of its parts do, and then its records are theirs, in order. */
  lemma DecodeLogAppend(a: Log, b: Log)
    ensures Replayable(a + b) <==> Replayable(a) && Replayable(b)
    ensures Replayable(a + b) ==> DecodeLog(a + b) == DecodeLog(a) + DecodeLog(b)
  {
    assert forall i :: 0 <= i < |a| ==> (a + b)[i] == a[i];
    assert forall i :: 0 <= i < |b| ==> (a + b)[|a| + i] == b[i];
    if Replayable(a + b) {
      var h, ha, hb := DecodeLog(a + b), DecodeLog(a), DecodeLog(b);
      DecodeLogAt(a + b);
      DecodeLogAt(a);
      DecodeLogAt(b);
      assert forall i :: 0 <= i < |a| ==> Parse((a + b)[i]) == Some(h[i]) && Parse(a[i]) == Some(ha[i]);
      assert forall i :: 0 <= i < |b| ==> Parse((a + b)[|a| + i]) == Some(h[|a| + i]) && Parse(b[i]) == Some(hb[i]);
    }
  }

  /**
   * `read_next`: read the value at the offset. The offset moves past it only
   * when it reads as a record; a failure leaves the handle exactly as it was.
   */
  function ReadNext(db: Database, log: Log): (s: Step<Option<Record>>)
    ensures s.db.history == db.history && s.db.nextRecordId == db.nextRecordId
    ensures s.result.Err? ==> s == Step(db, Err(ParseError)) && db.offset < |log| && Parse(log[db.offset]).None?
    ensures s.result == Ok(None) <==> db.offset >= |log|
    ensures s.result == Ok(None) ==> s.db == db
    ensures s.result.Ok? && s.result.value.Some? ==>
              db.offset < |log| && Parse(log[db.offset]) == s.result.value && s.db.offset == db.offset + 1
  {
    if db.offset >= |log| then Step(db, Ok(None))
    else
      match Parse(log[db.offset])
      case None => Step(db, Err(ParseError))
      case Some(r) => Step(db.(offset := db.offset + 1), Ok(Some(r)))
  }

  /** `handle_record`: append to the history and move the allocator past the record's identifier. */
  function HandleRecord(db: Database, r: Record): (d: Database)
    requires r.Id() < MAX_ID
    ensures d.history == db.history + [r] && d.offset == db.offset
    ensures d.nextRecordId >= db.nextRecordId && d.nextRecordId > r.Id()
    ensures d.nextRecordId == db.nextRecordId || d.nextRecordId == r.Id() + 1
    ensures Inv(db) ==> Inv(d)
  {
    var next := if r.Id() >= db.nextRecordId then r.Id() + 1 else db.nextRecordId;
    Database(db.history + [r], db.offset, next)
  }

  /** `is_at_end`: the offset is the file's end. */
  function IsAtEnd(db: Database, log: Log): (b: bool)
    ensures b ==> ReadNext(db, log) == Step(db, Ok(None))
    ensures !b && db.offset <= |log| ==> ReadNext(db, log).result != Ok(None)
    ensures db.offset > |log| ==> !b
  {
    db.offset == |log|
  }

  /** `d` is `db` with the `k` records at its offset appended to its history. */
  predicate FoldedIn(db: Database, log: Log, k: nat, d: Database)
  {
    db.offset + k <= |log| && Replayable(log[db.offset..db.offset + k]) &&
    d.history == db.history + DecodeLog(log[db.offset..db.offset + k])
  }

  /**
   * What a reload from `db` that ended in `s` did: the offset only moved
   * forward and the allocator only up; it succeeded exactly when the rest
   * of the log replays, and then the offset is at the end; a parse error
   * leaves the offset on the value that failed; and the history gained
   * exactly the records between the two offsets (all but the last one read,
   * when that one overflowed the allocator).
   */
  predicate Reloaded(db: Database, log: Log, s: Step<()>)
  {
    db.offset <= s.db.offset &&
    s.db.nextRecordId >= db.nextRecordId &&
    (db.offset > |log| ==> s == Step(db, Ok(()))) &&
    (Inv(db) ==> Inv(s.db)) &&
    (s.result.Ok? <==> db.offset >= |log| || Replayable(log[db.offset..])) &&
    s.result != Err(ExpectedEof) &&
    (s.result.Ok? ==> s.db.offset == if db.offset <= |log| then |log| else db.offset) &&
    (s.result == Err(ParseError) ==> s.db.offset < |log| && Parse(log[s.db.offset]).None?) &&
    (s.result != Err(IdOverflow) && db.offset <= |log| ==> FoldedIn(db, log, s.db.offset - db.offset, s.db)) &&
    (s.result == Err(IdOverflow) ==>
       db.offset < s.db.offset <= |log| &&
       Parse(log[s.db.offset - 1]).Some? && Parse(log[s.db.offset - 1]).value.Id() == MAX_ID &&
       FoldedIn(db, log, s.db.offset - 1 - db.offset, s.db))
  }

  /**
   * `reload`: fold records in until the end of the log or the first value
   * that does not read as a record. It only ever extends the history, with
   * exactly the records it read, and stops with the offset at the value that
   * failed, so a later reload retries it.
   */
  function Reload(db: Database, log: Log): (s: Step<()>)
    ensures Reloaded(db, log, s)
    decreases if db.offset <= |log| then |log| - db.offset else 0
  {
    var next := ReadNext(db, log);
    match next.result
    case Err(e) =>
      ReloadBroken(db, log);
      Step(next.db, Err(e))
    case Ok(None) =>
      ReloadAtEnd(db, log);
      Step(next.db, Ok(()))
    case Ok(Some(r)) =>
      if r.Id() == MAX_ID then
        ReloadOverflow(db, log);
        Step(next.db, Err(IdOverflow))
      else
        var handled := HandleRecord(next.db, r);
        var s := Reload(handled, log);
        ReloadRead(db, log, r, handled, s);
        s
  }

  /** `Reload` at or past the end of the log: nothing to read. */
  lemma ReloadAtEnd(db: Database, log: Log)
    requires db.offset >= |log|
    ensures Reloaded(db, log, Step(db, Ok(())))
  {
    FoldedNothing(db, log);
  }

  /** `Reload` on a value that is not a record: nothing moves. */
  lemma ReloadBroken(db: Database, log: Log)
    requires db.offset < |log| && Parse(log[db.offset]).None?
    ensures Reloaded(db, log, Step(db, Err(ParseError)))
  {
    FoldedNothing(db, log);
  }

  /** `Reload` on a record with the largest identifier: the offset is past it, nothing is folded in. */
  lemma ReloadOverflow(db: Database, log: Log)
    requires db.offset < |log| && Parse(log[db.offset]).Some? && Parse(log[db.offset]).value.Id() == MAX_ID
    ensures Reloaded(db, log, Step(db.(offset := db.offset + 1), Err(IdOverflow)))
  {
    FoldedNothing(db, log);
    ReplayableFrom(log, db.offset);
  }

  /** The inductive step of `Reload`: folding in one record in front of what the rest of the reload did. */
  lemma ReloadRead(db: Database, log: Log, r: Record, handled: Database, s: Step<()>)
    requires db.offset < |log| && Parse(log[db.offset]) == Some(r) && r.Id() < MAX_ID
    requires handled.offset == db.offset + 1 && handled.history == db.history + [r]
    requires handled.nextRecordId >= db.nextRecordId && (Inv(db) ==> Inv(handled))
    requires Reloaded(handled, log, s)
    ensures Reloaded(db, log, s)
  {
    ReplayableFrom(log, db.offset);
    if s.result == Err(IdOverflow) {
      ReloadReadOverflow(db, log, r, handled, s);
    } else {
      FoldedStep(db, log, r, handled, s.db.offset - handled.offset, s.db);
    }
  }

  lemma ReloadReadOverflow(db: Database, log: Log, r: Record, handled: Database, s: Step<()>)
    requires db.offset < |log| && Parse(log[db.offset]) == Some(r) && r.Id() < MAX_ID
    requires handled.offset == db.offset + 1 && handled.history == db.history + [r]
    requires s.result == Err(IdOverflow) && handled.offset < s.db.offset <= |log|
    requires FoldedIn(handled, log, s.db.offset - 1 - handled.offset, s.db)
    ensures FoldedIn(db, log, s.db.offset - 1 - db.offset, s.db)
  {
    var k := s.db.offset - 1 - handled.offset;
    FoldedStep(db, log, r, handled, k, s.db);
    assert k + 1 == s.db.offset - 1 - db.offset;
  }

  /** The tail of the log from `offset` replays exactly when its first value does and the rest replays. */
  lemma ReplayableFrom(log: Log, offset: nat)
    ensures offset == |log| ==> Replayable(log[offset..])
    ensures offset < |log| ==>
              (Replayable(log[offset..]) <==>
                 Parse(log[offset]).Some? && Parse(log[offset]).value.Id() < MAX_ID && Replayable(log[offset + 1..]))
  {
    if offset < |log| {
      var run := log[offset..];
      assert run[0] == log[offset];
      assert run[1..] == log[offset + 1..];
      assert forall i :: 1 <= i < |run| ==> run[i] == run[1..][i - 1];
    }
  }

  /**
   * A reload stops at the first value after the offset that is not a
   * record: everything before it is folded in, and the offset rests on it.
   */
  lemma {:induction false} ReloadStopsAtBroken(db: Database, log: Log, k: nat)
    requires db.offset <= k < |log| && Replayable(log[db.offset..k]) && Parse(log[k]).None?
    ensures Reload(db, log).result == Err(ParseError)
    ensures Reload(db, log).db.offset == k
    ensures FoldedIn(db, log, k - db.offset, Reload(db, log).db)
    decreases k - db.offset
  {
    if db.offset < k {
      var run := log[db.offset..k];
      assert run[0] == log[db.offset];
      var r := Parse(log[db.offset]).value;
      var handled := HandleRecord(db.(offset := db.offset + 1), r);
      assert log[handled.offset..k] == run[1..];
      assert forall i :: 0 <= i < |run| - 1 ==> run[1..][i] == run[i + 1];
      ReloadStopsAtBroken(handled, log, k);
      assert Reload(db, log) == Reload(handled, log);
      FoldedStep(db, log, r, handled, k - handled.offset, Reload(db, log).db);
    } else {
      FoldedNothing(db, log);
    }
  }

  /**
   * The allocator after folding in `rs` from `n`, as a reference: `n`, or
   * one above the largest identifier among `rs` when that is higher.
   */
  function NextAfter(n: int, rs: History): int
    decreases |rs|
  {
    if |rs| == 0 then n
    else NextAfter(if rs[0].Id() >= n then rs[0].Id() + 1 else n, rs[1..])
  }

  lemma NextAfterCons(n: int, r: Record, rest: History)
    ensures NextAfter(n, [r] + rest) == NextAfter(if r.Id() >= n then r.Id() + 1 else n, rest)
  {
    assert ([r] + rest)[0] == r && ([r] + rest)[1..] == rest;
  }

  lemma NextAfterOne(n: int, r: Record)
    ensures NextAfter(n, [r]) == if r.Id() >= n then r.Id() + 1 else n
  {
    assert [r][1..] == [];
  }

  /** Folding two runs of records into the allocator is folding in the first, then the second. */
  lemma {:induction false} NextAfterAppend(n: int, a: History, b: History)
    ensures NextAfter(n, a + b) == NextAfter(NextAfter(n, a), b)
    decreases |a|
  {
    if |a| == 0 {
      assert a + b == b;
    } else {
      var m := if a[0].Id() >= n then a[0].Id() + 1 else n;
      NextAfterAppend(m, a[1..], b);
      assert (a + b)[0] == a[0] && (a + b)[1..] == a[1..] + b;
    }
  }

  /** `NextAfter` is the maximum of `n` and every identifier plus one. */
  lemma {:induction false} NextAfterIsMax(n: int, rs: History)
    ensures NextAfter(n, rs) >= n
    ensures forall i :: 0 <= i < |rs| ==> NextAfter(n, rs) > rs[i].Id()
    ensures NextAfter(n, rs) == n || exists i :: 0 <= i < |rs| && NextAfter(n, rs) == rs[i].Id() + 1
    decreases |rs|
  {
    if |rs| > 0 {
      var m := if rs[0].Id() >= n then rs[0].Id() + 1 else n;
      NextAfterIsMax(m, rs[1..]);
      assert forall i :: 1 <= i < |rs| ==> rs[i] == rs[1..][i - 1];
      if NextAfter(n, rs) != m {
        var j :| 0 <= j < |rs[1..]| && NextAfter(n, rs) == rs[1..][j].Id() + 1;
        assert NextAfter(n, rs) == rs[j + 1].Id() + 1;
      } else if m != n {
        assert NextAfter(n, rs) == rs[0].Id() + 1;
      }
    }
  }

  /** A reload that does not overflow leaves the allocator where folding in the records it read puts it. */
  lemma {:induction false} ReloadNext(db: Database, log: Log)
    requires db.offset <= |log|
    ensures var s := Reload(db, log);
      s.result != Err(IdOverflow) ==>
        db.offset <= s.db.offset <= |log| && Replayable(log[db.offset..s.db.offset]) &&
        s.db.nextRecordId == NextAfter(db.nextRecordId, DecodeLog(log[db.offset..s.db.offset]))
    decreases |log| - db.offset
  {
    var s := Reload(db, log);
    var next := ReadNext(db, log);
    if next.result.Ok? && next.result.value.Some? && next.result.value.value.Id() < MAX_ID {
      var r := next.result.value.value;
      var handled := HandleRecord(next.db, r);
      assert s == Reload(handled, log);
      ReloadNext(handled, log);
      if s.result != Err(IdOverflow) {
        NextStep(db, log, r, handled, s.db);
      }
    } else if s.result != Err(IdOverflow) {
      assert s.db == db;
      assert log[db.offset..db.offset] == [];
    }
  }

  /** The inductive step of `ReloadNext`: one more record read at the front. */
  lemma NextStep(db: Database, log: Log, r: Record, handled: Database, d: Database)
    requires db.offset < |log| && Parse(log[db.offset]) == Some(r) && r.Id() < MAX_ID
    requires handled.offset == db.offset + 1
    requires handled.nextRecordId == if r.Id() >= db.nextRecordId then r.Id() + 1 else db.nextRecordId
    requires handled.offset <= d.offset <= |log| && Replayable(log[handled.offset..d.offset])
    requires d.nextRecordId == NextAfter(handled.nextRecordId, DecodeLog(log[handled.offset..d.offset]))
    ensures db.offset <= d.offset <= |log| && Replayable(log[db.offset..d.offset])
    ensures d.nextRecordId == NextAfter(db.nextRecordId, DecodeLog(log[db.offset..d.offset]))
  {
    ReloadStep(db, log, r, d.offset);
    var rest := DecodeLog(log[db.offset + 1..d.offset]);
    NextAfterCons(db.nextRecordId, r, rest);
  }

  /** A reload never removes or reorders what the history already held. */
  lemma ReloadOnlyExtends(db: Database, log: Log)
    ensures var s := Reload(db, log);
            |s.db.history| >= |db.history| && s.db.history[..|db.history|] == db.history
  {
  }

  lemma FoldedNothing(db: Database, log: Log)
    ensures db.offset <= |log| ==> FoldedIn(db, log, 0, db)
    ensures db.offset == |log| ==> Replayable(log[db.offset..])
  {
    if db.offset <= |log| {
      assert log[db.offset..db.offset + 0] == [];
    }
  }

  /** Reading one more record at the front of a replayable run. */
  lemma ReloadStep(db: Database, log: Log, r: Record, k: int)
    requires db.offset < k <= |log|
    requires Parse(log[db.offset]) == Some(r) && r.Id() < MAX_ID
    ensures Replayable(log[db.offset..k]) <==> Replayable(log[db.offset + 1..k])
    ensures Replayable(log[db.offset + 1..k]) ==>
              DecodeLog(log[db.offset..k]) == [r] + DecodeLog(log[db.offset + 1..k])
  {
    var run := log[db.offset..k];
    assert run[0] == log[db.offset];
    assert run[1..] == log[db.offset + 1..k];
    assert forall i :: 1 <= i < |run| ==> run[i] == run[1..][i - 1];
  }

  lemma FoldedStep(db: Database, log: Log, r: Record, handled: Database, k: nat, d: Database)
    requires db.offset < |log| && Parse(log[db.offset]) == Some(r) && r.Id() < MAX_ID
    requires handled.offset == db.offset + 1 && handled.history == db.history + [r]
    requires FoldedIn(handled, log, k, d)
    ensures FoldedIn(db, log, k + 1, d)
  {
    var end := db.offset + 1 + k;
    ReloadStep(db, log, r, end);
    var rest := log[db.offset + 1..end];
    assert handled.offset + k == end && log[handled.offset..handled.offset + k] == rest;
    assert d.history == (db.history + [r]) + DecodeLog(rest);
    assert db.offset + (k + 1) == end;
    assert DecodeLog(log[db.offset..end]) == [r] + DecodeLog(rest);
  }

  /** A successful reload has read up to the end and folded in the whole rest of the log. */
  lemma CaughtUp(db: Database, log: Log, s: Step<()>)
    requires Reloaded(db, log, s) && s.result.Ok?
    ensures db.offset <= |log| ==>
              s.db.offset == |log| && Replayable(log[db.offset..]) &&
              s.db.history == db.history + DecodeLog(log[db.offset..])
  {
    if db.offset <= |log| {
      assert log[db.offset..db.offset + (s.db.offset - db.offset)] == log[db.offset..];
    }
  }

  /** A successful catch-up leaves the allocator where folding in the whole rest of the log puts it. */
  lemma CaughtUpNext(db: Database, log: Log, s: Step<()>)
    requires db.offset <= |log| && s == Reload(db, log) && s.result.Ok?
    ensures s.db.nextRecordId == NextAfter(db.nextRecordId, DecodeLog(log[db.offset..]))
  {
    ReloadNext(db, log);
    CaughtUp(db, log, s);
    assert log[db.offset..s.db.offset] == log[db.offset..];
  }

  /** The allocator after `write_record` has caught up and handled its own record. */
  lemma WrittenNext(db: Database, log: Log, s: Step<()>, r: Record)
    requires db.offset <= |log| && s == Reload(db, log) && s.result.Ok? && r.Id() < MAX_ID
    ensures HandleRecord(s.db, r).nextRecordId == NextAfter(db.nextRecordId, DecodeLog(log[db.offset..]) + [r])
  {
    CaughtUpNext(db, log, s);
    NextAfterAppend(db.nextRecordId, DecodeLog(log[db.offset..]), [r]);
    NextAfterOne(s.db.nextRecordId, r);
  }

  // ---------------------------------------------------------------------------
  // Writing

  /**
   * `write_record`: catch up with the log, refuse with "Expected EOF" unless
   * the offset is then the end of the file, append the record's line and fold
   * the record into the history. `foreign` is what other writers append
   * between the catch-up and the end-of-file check. The offset is not moved
   * past the appended line, so the next reload reads it again.
   */
  function WriteRecord(db: Database, log: Log, foreign: Log, r: Record): (w: Write<()>)
    ensures w.result.Ok? ==>
              w.log == log + foreign + [Line(r)] && |w.db.history| > 0 && w.db.history[|w.db.history| - 1] == r
    ensures db.offset <= |log| ==>
              (w.result.Ok? <==> Replayable(log[db.offset..]) && foreign == [] && r.Id() < MAX_ID)
    ensures db.offset <= |log| && w.result.Ok? ==>
              w.db.offset == |log| && w.db.history == db.history + DecodeLog(log[db.offset..]) + [r]
    // the allocator is `handle_record`'s, applied to the caught-up records and then to `r`
    ensures db.offset <= |log| && w.result.Ok? ==>
              w.db.nextRecordId == NextAfter(db.nextRecordId, DecodeLog(log[db.offset..]) + [r])
    // another writer got in after the catch-up: nothing is appended, only the catch-up is kept
    ensures db.offset <= |log| && Replayable(log[db.offset..]) && foreign != [] ==>
              w.result == Err(ExpectedEof) && w.log == log + foreign &&
              w.db.history == db.history + DecodeLog(log[db.offset..]) &&
              w.db.nextRecordId == NextAfter(db.nextRecordId, DecodeLog(log[db.offset..]))
    // the catch-up failed: nothing is appended
    ensures db.offset <= |log| && !Replayable(log[db.offset..]) ==> w.result.Err? && w.log == log
    ensures w.result.Err? && w.result.error != IdOverflow ==> w.log == log || w.log == log + foreign
    ensures w.db.nextRecordId >= db.nextRecordId
    ensures Inv(db) ==> Inv(w.db)
  {
    var loaded := Reload(db, log);
    if loaded.result.Err? then Write(loaded.db, log, Err(loaded.result.error))
    else
      CaughtUp(db, log, loaded);
      var now := log + foreign;
      if !IsAtEnd(loaded.db, now) then
        if db.offset <= |log| then CaughtUpNext(db, log, loaded); Write(loaded.db, now, Err(ExpectedEof))
        else Write(loaded.db, now, Err(ExpectedEof))
      else
        var written := now + [Line(r)];
        if r.Id() == MAX_ID then Write(loaded.db, written, Err(IdOverflow))
        else if db.offset <= |log| then WrittenNext(db, log, loaded, r); Write(HandleRecord(loaded.db, r), written, Ok(()))
        else Write(HandleRecord(loaded.db, r), written, Ok(()))
  }

  /**
   * What `insert` from `db` that ended in `w` did: on an exhausted allocator
   * nothing at all; otherwise the allocator moved on, whatever the write's
   * outcome. On success the identifier returned is the allocator's old value,
   * above every identifier in the history; the log gained the upsert's line
   * and nothing else; the history is the caught-up one plus that upsert; the
   * allocator is as `InsertAllocated` says; and `get` returns the new payload. The write succeeds exactly when the rest
   * of the log replays and no other writer appended.
   */
  predicate Inserted(db: Database, log: Log, foreign: Log, data: Fields, w: Write<RecordId>)
  {
    (db.nextRecordId == MAX_ID ==> w == Write(db, log, Err(IdOverflow))) &&
    (db.nextRecordId < MAX_ID ==> w.db.nextRecordId > db.nextRecordId) &&
    (w.result.Ok? ==> w.result.value == db.nextRecordId && w.db.nextRecordId > w.result.value) &&
    (w.result.Ok? && Inv(db) ==> forall i :: 0 <= i < |db.history| ==> db.history[i].Id() < w.result.value) &&
    (w.result.Ok? ==> w.log == log + foreign + [Line(UpsertOf(w.result.value, data))]) &&
    (w.result.Ok? ==> Get(w.db.history, w.result.value) == Some(RecordData(w.result.value, data))) &&
    (db.offset <= |log| && db.nextRecordId < MAX_ID ==>
       (w.result.Ok? <==> Replayable(log[db.offset..]) && foreign == [])) &&
    (db.offset <= |log| && w.result.Ok? ==>
       Replayable(log[db.offset..]) && w.db.offset == |log| &&
       w.db.history == db.history + DecodeLog(log[db.offset..]) + [UpsertOf(w.result.value, data)]) &&
    InsertAllocated(db, log, w) &&
    (Inv(db) ==> Inv(w.db))
  }

  /**
   * The allocator after a successful `insert` from `db`: its old value plus
   * one, raised by the caught-up records as `handle_record` raises it. The
   * upsert itself, under the old value, does not move it further.
   */
  predicate InsertAllocated(db: Database, log: Log, w: Write<RecordId>)
  {
    db.offset <= |log| && w.result.Ok? ==>
      Replayable(log[db.offset..]) &&
      w.db.nextRecordId == NextAfter(db.nextRecordId + 1, DecodeLog(log[db.offset..]))
  }

  /**
   * `insert`: take the allocator's value as the new identifier, advance the
   * allocator (before the write, so a failed write still uses the value up)
   * and write an upsert. The identifier is above every identifier in the
   * handle's history at the time of the call, deleted ones included.
   */
  function Insert(db: Database, log: Log, foreign: Log, data: Fields): (w: Write<RecordId>)
    ensures Inserted(db, log, foreign, data, w)
  {
    if db.nextRecordId == MAX_ID then Write(db, log, Err(IdOverflow))
    else InsertWritten(db, log, foreign, data); InsertWrite(db, log, foreign, data)
  }

  /** The steps of `insert` past the overflow check: advance the allocator, then write the upsert under the old value. */
  function InsertWrite(db: Database, log: Log, foreign: Log, data: Fields): Write<RecordId>
    requires db.nextRecordId < MAX_ID
  {
    var id := db.nextRecordId;
    var w := WriteRecord(db.(nextRecordId := id + 1), log, foreign, UpsertOf(id, data));
    Write(w.db, w.log, if w.result.Ok? then Ok(id) else Err(w.result.error))
  }

  /** The write inside `insert`, in terms of the handle before the allocator moved. */
  lemma InsertWritten(db: Database, log: Log, foreign: Log, data: Fields)
    requires db.nextRecordId < MAX_ID
    ensures Inserted(db, log, foreign, data, InsertWrite(db, log, foreign, data))
  {
    var w := WriteRecord(db.(nextRecordId := db.nextRecordId + 1), log, foreign, UpsertOf(db.nextRecordId, data));
    var r := InsertWrite(db, log, foreign, data);
    InsertAllocWritten(db, log, foreign, data, w, r);
    if w.result.Ok? {
      LastRecordDecides(w.db.history);
    }
  }

  /** The allocator after the write inside `insert`. */
  lemma InsertAllocWritten(db: Database, log: Log, foreign: Log, data: Fields, w: Write<()>, r: Write<RecordId>)
    requires db.nextRecordId < MAX_ID
    requires w == WriteRecord(db.(nextRecordId := db.nextRecordId + 1), log, foreign, UpsertOf(db.nextRecordId, data))
    requires r == Write(w.db, w.log, if w.result.Ok? then Ok(db.nextRecordId) else Err(w.result.error))
    ensures InsertAllocated(db, log, r)
  {
    if db.offset <= |log| && w.result.Ok? {
      InsertNext(db.nextRecordId, DecodeLog(log[db.offset..]), UpsertOf(db.nextRecordId, data));
    }
  }

  /** The record `insert` writes under the allocator's old value `n` leaves the advanced allocator where it is. */
  lemma InsertNext(n: int, tail: History, u: Record)
    requires u.Id() == n
    ensures NextAfter(n + 1, tail + [u]) == NextAfter(n + 1, tail)
  {
    NextAfterAppend(n + 1, tail, [u]);
    NextAfterIsMax(n + 1, tail);
    NextAfterOne(NextAfter(n + 1, tail), u);
  }

  /** The payload `upsert` hands its resolver: the live one, as this handle saw it before catching up. */
  function Current(h: History, id: RecordId): (c: Option<Fields>)
    ensures c == (if id in LiveMap(h) then Some(LiveMap(h)[id]) else None)
  {
    match Get(h, id)
    case Some(d) => Some(d.data)
    case None => None
  }

  /**
   * `upsert`: the resolver maps the current payload to the new one. A new
   * payload is written as an upsert; no payload deletes a live record and
   * does nothing at all (no catch-up, no write) for one that is not live.
   */
  function Upsert(db: Database, log: Log, foreign: Log, id: RecordId, resolve: Option<Fields> -> Option<Fields>)
    : (w: Write<()>)
    ensures resolve(Current(db.history, id)).None? && id !in LiveMap(db.history) ==> w == Write(db, log, Ok(()))
    ensures resolve(Current(db.history, id)).Some? && w.result.Ok? ==>
              var d := resolve(Current(db.history, id)).value;
              w.log == log + foreign + [Line(UpsertOf(id, d))] && Get(w.db.history, id) == Some(RecordData(id, d))
    ensures resolve(Current(db.history, id)).None? && id in LiveMap(db.history) && w.result.Ok? ==>
              w.log == log + foreign + [Line(DeleteOf(id))] && Get(w.db.history, id) == None
    ensures (resolve(Current(db.history, id)).Some? || id in LiveMap(db.history)) && db.offset <= |log| ==>
              (w.result.Ok? <==> Replayable(log[db.offset..]) && foreign == [] && id < MAX_ID)
    // nothing else changes: the history is the caught-up one plus the one record written
    ensures db.offset <= |log| && w.result.Ok? && resolve(Current(db.history, id)).Some? ==>
              w.db.offset == |log| &&
              w.db.history == db.history + DecodeLog(log[db.offset..]) + [UpsertOf(id, resolve(Current(db.history, id)).value)]
    ensures db.offset <= |log| && w.result.Ok? && resolve(Current(db.history, id)).None? && id in LiveMap(db.history) ==>
              w.db.offset == |log| &&
              w.db.history == db.history + DecodeLog(log[db.offset..]) + [DeleteOf(id)]
    ensures Inv(db) ==> Inv(w.db)
  {
    var current := Current(db.history, id);
    match resolve(current)
    case Some(d) =>
      var w := WriteRecord(db, log, foreign, UpsertOf(id, d));
      if w.result.Ok? then LastRecordDecides(w.db.history); w else w
    case None =>
      if current.Some? then
        var w := WriteRecord(db, log, foreign, DeleteOf(id));
        if w.result.Ok? then LastRecordDecides(w.db.history); w else w
      else Write(db, log, Ok(()))
  }

  /**
   * `delete`: always write a tombstone, live or not. Afterwards the
   * identifier is not live; the view that ignores tombstones is what the
   * catch-up left.
   */
  function Delete(db: Database, log: Log, foreign: Log, id: RecordId): (w: Write<()>)
    ensures w.result.Ok? ==> w.log == log + foreign + [Line(DeleteOf(id))] && Get(w.db.history, id) == None
    ensures db.offset <= |log| && w.result.Ok? ==>
              Replayable(log[db.offset..]) &&
              LiveMap(w.db.history) == LiveMap(db.history + DecodeLog(log[db.offset..])) - {id} &&
              UpsertMap(w.db.history) == UpsertMap(db.history + DecodeLog(log[db.offset..]))
    ensures db.offset <= |log| ==> (w.result.Ok? <==> Replayable(log[db.offset..]) && foreign == [] && id < MAX_ID)
    ensures Inv(db) ==> Inv(w.db)
  {
    var w := WriteRecord(db, log, foreign, DeleteOf(id));
    if w.result.Ok? && db.offset <= |log| then
      TombstoneReplay(db.history + DecodeLog(log[db.offset..]), w.db.history, id);
      w
    else w
  }

  /** Replaying one more tombstone removes its identifier from the live map and leaves the other map alone. */
  lemma TombstoneReplay(before: History, after: History, id: RecordId)
    requires after == before + [DeleteOf(id)]
    ensures LiveMap(after) == LiveMap(before) - {id}
    ensures UpsertMap(after) == UpsertMap(before)
    ensures Get(after, id) == None
  {
    Snoc(before, DeleteOf(id));
  }
}

=== FILE: views.dfy ===
/**
 * The views src/database.rs derives from the in-memory history: the live view
 * (`records`), the view that ignores tombstones (`records_include_deleted`),
 * point lookup (`get`) and the live count (`record_count`).
 *
 * Each view is computed the way the source computes it and is proved equal to
 * an independent replay of the history into a map. The live view reverses the
 * history, keeps the first record per identifier, then drops tombstones, so a
 * tombstone hides every earlier upsert of its identifier (`LiveMap`). The view
 * that includes deleted records reverses the history, drops tombstones first,
 * then keeps the first payload per identifier, so the latest upsert survives a
 * later tombstone (`UpsertMap`). Both sort the result by identifier.
 */
module Views {
  import opened Wrappers
  import opened Json
  import opened LogRecord

  /** Every record parsed or written so far, oldest first. */
  type History = seq<Record>

  // ---------------------------------------------------------------------------
  // Reference semantics: replay the history into a key-value map.

  /** Last writer wins: an upsert sets its identifier's payload, a tombstone removes it. */
  function LiveMap(h: History): map<RecordId, Fields>
  {
    if |h| == 0 then map[]
    else
      var m := LiveMap(h[..|h| - 1]);
      match h[|h| - 1]
      case Upsert(u) => m[u.data.id := u.data.data]
      case Delete(d) => m - {d.id}
  }

  /** Last upsert wins and tombstones are ignored. */
  function UpsertMap(h: History): map<RecordId, Fields>
  {
    if |h| == 0 then map[]
    else
      var m := UpsertMap(h[..|h| - 1]);
      match h[|h| - 1]
      case Upsert(u) => m[u.data.id := u.data.data]
      case Delete(_) => m
  }

  /** Both replays after one more record. */
  lemma Snoc(h: History, r: Record)
    ensures LiveMap(h + [r]) == (if r.Upsert? then LiveMap(h)[r.Id() := r.upsert.data.data] else LiveMap(h) - {r.Id()})
    ensures UpsertMap(h + [r]) == (if r.Upsert? then UpsertMap(h)[r.Id() := r.upsert.data.data] else UpsertMap(h))
  {
    assert (h + [r])[..|h|] == h;
  }

  /** The most recent record that bears identifier `id`. */
  function Latest(h: History, id: RecordId): (r: Option<Record>)
    ensures r.None? <==> forall i :: 0 <= i < |h| ==> h[i].Id() != id
    ensures r.Some? ==> r.value.Id() == id
    ensures r.Some? ==> exists i :: 0 <= i < |h| && h[i] == r.value &&
                          forall j :: i < j < |h| ==> h[j].Id() != id
  {
    if |h| == 0 then None
    else if h[|h| - 1].Id() == id then Some(h[|h| - 1])
    else
      var r := Latest(h[..|h| - 1], id);
      assert forall j :: 0 <= j < |h| - 1 ==> h[..|h| - 1][j] == h[j];
      r
  }

  /** The most recent upsert for identifier `id`, whatever tombstones follow it. */
  function LatestUpsert(h: History, id: RecordId): (r: Option<RecordData>)
    ensures r.None? <==> forall i :: 0 <= i < |h| ==> Data(h[i]).None? || h[i].Id() != id
    ensures r.Some? ==> r.value.id == id
    ensures r.Some? ==> exists i :: 0 <= i < |h| && Data(h[i]) == r &&
                          forall j :: i < j < |h| ==> Data(h[j]).None? || h[j].Id() != id
  {
    if |h| == 0 then None
    else if h[|h| - 1].Upsert? && h[|h| - 1].Id() == id then Data(h[|h| - 1])
    else
      var r := LatestUpsert(h[..|h| - 1], id);
      LatestUpsertStep(h, id, r);
      r
  }

  /** An older upsert stays the most recent one past a record that is not an upsert for `id`. */
  lemma LatestUpsertStep(h: History, id: RecordId, r: Option<RecordData>)
    requires |h| > 0 && !(h[|h| - 1].Upsert? && h[|h| - 1].Id() == id)
    requires var init := h[..|h| - 1];
      (r.None? <==> forall i :: 0 <= i < |init| ==> Data(init[i]).None? || init[i].Id() != id) &&
      (r.Some? ==> r.value.id == id) &&
      (r.Some? ==> exists i :: 0 <= i < |init| && Data(init[i]) == r &&
                     forall j :: i < j < |init| ==> Data(init[j]).None? || init[j].Id() != id)
    ensures r.None? <==> forall i :: 0 <= i < |h| ==> Data(h[i]).None? || h[i].Id() != id
    ensures r.Some? ==> exists i :: 0 <= i < |h| && Data(h[i]) == r &&
                          forall j :: i < j < |h| ==> Data(h[j]).None? || h[j].Id() != id
  {
    var init := h[..|h| - 1];
    assert forall j :: 0 <= j < |init| ==> init[j] == h[j];
    if r.Some? {
      var i :| 0 <= i < |init| && Data(init[i]) == r &&
               forall j :: i < j < |init| ==> Data(init[j]).None? || init[j].Id() != id;
      assert Data(h[i]) == r;
    }
  }

  /** An identifier is live exactly when its most recent record is an upsert, whose payload it then has. */
  lemma {:induction false} LiveMapFollowsLatest(h: History, id: RecordId)
    ensures id in LiveMap(h) <==> Latest(h, id).Some? && Latest(h, id).value.Upsert?
    ensures id in LiveMap(h) ==> LiveMap(h)[id] == Latest(h, id).value.upsert.data.data
    decreases |h|
  {
    if |h| > 0 {
      LiveMapFollowsLatest(h[..|h| - 1], id);
    }
  }

  /** The map that ignores tombstones holds the payload of each identifier's most recent upsert. */
  lemma {:induction false} UpsertMapFollowsLatestUpsert(h: History, id: RecordId)
    ensures id in UpsertMap(h) <==> LatestUpsert(h, id).Some?
    ensures id in UpsertMap(h) ==> LatestUpsert(h, id) == Some(RecordData(id, UpsertMap(h)[id]))
    decreases |h|
  {
    if |h| > 0 {
      UpsertMapFollowsLatestUpsert(h[..|h| - 1], id);
    }
  }

  /** Whatever is live has as its payload the one of its most recent upsert. */
  lemma {:induction false} LiveWithinUpserts(h: History)
    ensures forall id :: id in LiveMap(h) ==> id in UpsertMap(h) && UpsertMap(h)[id] == LiveMap(h)[id]
    decreases |h|
  {
    if |h| > 0 {
      LiveWithinUpserts(h[..|h| - 1]);
    }
  }

  // ---------------------------------------------------------------------------
  // The iterator pipeline of the source.

  /** `iter().rev()`. */
  function Reverse<T>(s: seq<T>): (r: seq<T>)
    ensures |r| == |s|
    ensures forall i :: 0 <= i < |s| ==> r[i] == s[|s| - 1 - i]
  {
    if |s| == 0 then [] else [s[|s| - 1]] + Reverse(s[..|s| - 1])
  }

  /** The key `unique_by` uses on records. */
  function RecordKey(r: Record): RecordId
  {
    r.Id()
  }

  /** The key `unique_by` uses on payloads. */
  function DataKey(d: RecordData): RecordId
  {
    d.id
  }

  /**
   * itertools' `unique_by`: an element is yielded only if no earlier element
   * (and nothing in `seen`) had its key.
   */
  function UniqueBy<T(==), K(==)>(s: seq<T>, key: T -> K, seen: set<K>): (r: seq<T>)
    ensures forall i :: 0 <= i < |r| ==> r[i] in s && key(r[i]) !in seen
    ensures forall i, j :: 0 <= i < j < |r| ==> key(r[i]) != key(r[j])
  {
    if |s| == 0 then []
    else
      if key(s[0]) in seen then UniqueBy(s[1..], key, seen)
      else
        var rest := UniqueBy(s[1..], key, seen + {key(s[0])});
        var r := [s[0]] + rest;
        assert forall j :: 1 <= j < |r| ==> r[j] == rest[j - 1];
        r
  }

  /** The element at `i` is the first of its key in `s`, and the key was not seen before `s`. */
  predicate FirstOf<T, K(==)>(s: seq<T>, key: T -> K, seen: set<K>, i: int)
    requires 0 <= i < |s|
  {
    key(s[i]) !in seen && forall k :: 0 <= k < i ==> key(s[k]) != key(s[i])
  }

  /**
   * `unique_by` keeps exactly the first occurrence of every key not seen
   * before: each such element is kept, and each element kept is one.
   */
  lemma {:induction false} UniqueByKeepsFirst<T, K>(s: seq<T>, key: T -> K, seen: set<K>)
    ensures forall i :: 0 <= i < |s| && FirstOf(s, key, seen, i) ==> s[i] in UniqueBy(s, key, seen)
    ensures forall x :: x in UniqueBy(s, key, seen) ==> exists i :: 0 <= i < |s| && s[i] == x && FirstOf(s, key, seen, i)
    decreases |s|
  {
    if |s| > 0 {
      var x, t := s[0], s[1..];
      var u := UniqueBy(s, key, seen);
      var seen' := if key(x) in seen then seen else seen + {key(x)};
      var rest := UniqueBy(t, key, seen');
      UniqueByKeepsFirst(t, key, seen');
      assert forall i :: 1 <= i < |s| ==> s[i] == t[i - 1];
      assert u == (if key(x) in seen then rest else [x] + rest);
      forall i | 0 <= i < |s| && FirstOf(s, key, seen, i)
        ensures s[i] in u
      {
        if i > 0 {
          assert FirstOf(t, key, seen', i - 1) by {
            forall k | 0 <= k < i - 1
              ensures key(t[k]) != key(t[i - 1])
            {
              assert key(s[k + 1]) != key(s[i]);
            }
            assert key(s[0]) != key(s[i]);
          }
        }
      }
      forall y | y in u
        ensures exists i :: 0 <= i < |s| && s[i] == y && FirstOf(s, key, seen, i)
      {
        if key(x) !in seen && y == x {
          assert s[0] == y && FirstOf(s, key, seen, 0);
        } else {
          assert y in rest;
          var j :| 0 <= j < |t| && t[j] == y && FirstOf(t, key, seen', j);
          assert s[j + 1] == y;
          assert FirstOf(s, key, seen, j + 1) by {
            forall k | 0 <= k < j + 1
              ensures key(s[k]) != key(y)
            {
              if k > 0 {
                assert key(t[k - 1]) != key(t[j]);
              }
            }
          }
        }
      }
    }
  }

  /** `filter_map(Record::data)`: the payloads of the upserts, in order. */
  function DataOf(s: seq<Record>): (r: seq<RecordData>)
    ensures forall x :: x in r <==> exists i :: 0 <= i < |s| && Data(s[i]) == Some(x)
    ensures (forall i, j :: 0 <= i < j < |s| ==> s[i].Id() != s[j].Id()) ==> DistinctIds(r)
  {
    if |s| == 0 then []
    else
      var rest := DataOf(s[1..]);
      assert forall i :: 1 <= i < |s| ==> s[1..][i - 1] == s[i];
      match Data(s[0])
      case Some(d) =>
        assert forall x :: x in rest ==> exists i :: 1 <= i < |s| && s[i].Id() == x.id;
        DistinctCons(d, rest);
        [d] + rest
      case None => rest
  }

  lemma DistinctCons(d: RecordData, rest: seq<RecordData>)
    ensures DistinctIds(rest) && (forall x :: x in rest ==> x.id != d.id) ==> DistinctIds([d] + rest)
  {
    assert forall j :: 1 <= j < |[d] + rest| ==> ([d] + rest)[j] == rest[j - 1];
  }

  predicate DistinctIds(s: seq<RecordData>)
  {
    forall i, j :: 0 <= i < j < |s| ==> s[i].id != s[j].id
  }

  predicate Ascending(s: seq<RecordData>)
  {
    forall i, j :: 0 <= i < j < |s| ==> s[i].id <= s[j].id
  }

  predicate StrictlyAscending(s: seq<RecordData>)
  {
    forall i, j :: 0 <= i < j < |s| ==> s[i].id < s[j].id
  }

  /** One step of an insertion sort by identifier: `x` goes before the first element whose identifier is not smaller. */
  function InsertById(x: RecordData, s: seq<RecordData>): (r: seq<RecordData>)
    ensures multiset(r) == multiset(s) + multiset{x}
  {
    if |s| == 0 then [x]
    else if x.id <= s[0].id then [x] + s
    else
      assert s == [s[0]] + s[1..];
      [s[0]] + InsertById(x, s[1..])
  }

  /** Putting an element in front of an ordered sequence keeps it ordered when it bounds the rest from below. */
  lemma ConsOrdered(x: RecordData, s: seq<RecordData>)
    requires forall y :: y in s ==> x.id <= y.id
    ensures Ascending(s) ==> Ascending([x] + s)
    ensures StrictlyAscending(s) && (forall y :: y in s ==> x.id != y.id) ==> StrictlyAscending([x] + s)
  {
    assert forall j :: 1 <= j < |[x] + s| ==> ([x] + s)[j] == s[j - 1];
  }

  /** Every element of an insertion comes from the sequence or is the inserted element. */
  lemma InsertFrom(x: RecordData, s: seq<RecordData>)
    ensures forall y :: y in InsertById(x, s) ==> y == x || y in s
  {
    var r := InsertById(x, s);
    assert forall y :: y in r ==> y in multiset(r);
  }

  lemma {:induction false} InsertAscending(x: RecordData, s: seq<RecordData>)
    requires Ascending(s)
    ensures Ascending(InsertById(x, s))
    decreases |s|
  {
    if |s| == 0 {
    } else if x.id <= s[0].id {
      ConsOrdered(x, s);
    } else {
      InsertAscending(x, s[1..]);
      InsertFrom(x, s[1..]);
      ConsOrdered(s[0], InsertById(x, s[1..]));
    }
  }

  lemma {:induction false} InsertStrictlyAscending(x: RecordData, s: seq<RecordData>)
    requires StrictlyAscending(s)
    requires forall y :: y in s ==> y.id != x.id
    ensures StrictlyAscending(InsertById(x, s))
    decreases |s|
  {
    if |s| == 0 {
    } else if x.id <= s[0].id {
      ConsOrdered(x, s);
    } else {
      InsertStrictlyAscending(x, s[1..]);
      InsertFrom(x, s[1..]);
      ConsOrdered(s[0], InsertById(x, s[1..]));
    }
  }

  /** `sort_by_key(|data| data.id)`, as an insertion sort: a permutation of its input. */
  function SortById(s: seq<RecordData>): (r: seq<RecordData>)
    ensures multiset(r) == multiset(s)
  {
    if |s| == 0 then []
    else
      assert s == [s[0]] + s[1..];
      InsertById(s[0], SortById(s[1..]))
  }

  /** The sort orders its output by identifier. */
  lemma {:induction false} SortAscending(s: seq<RecordData>)
    ensures Ascending(SortById(s))
    decreases |s|
  {
    if |s| > 0 {
      SortAscending(s[1..]);
      InsertAscending(s[0], SortById(s[1..]));
    }
  }

  /** Sorting payloads with distinct identifiers leaves them strictly ascending. */
  lemma {:induction false} SortStrictlyAscending(s: seq<RecordData>)
    requires DistinctIds(s)
    ensures StrictlyAscending(SortById(s))
    decreases |s|
  {
    if |s| > 0 {
      var rest := SortById(s[1..]);
      SortStrictlyAscending(s[1..]);
      assert forall y :: y in rest ==> y in multiset(s[1..]);
      InsertStrictlyAscending(s[0], rest);
    }
  }

  /** `find(|record| record.id == id)`: the first element with that identifier. */
  function Find(s: seq<RecordData>, id: RecordId): (r: Option<RecordData>)
    ensures r.Some? ==> r.value in s && r.value.id == id
    ensures r.None? <==> forall x :: x in s ==> x.id != id
    // the element found is the first one with that identifier
    ensures r.Some? ==> exists i :: 0 <= i < |s| && s[i] == r.value && forall j :: 0 <= j < i ==> s[j].id != id
  {
    if |s| == 0 then None
    else if s[0].id == id then Some(s[0])
    else
      var r := Find(s[1..], id);
      assert forall j :: 1 <= j < |s| ==> s[j] == s[1..][j - 1];
      r
  }

  // ---------------------------------------------------------------------------
  // The views.

  /** `filter_map` over one more element at the front. */
  lemma DataOfCons(r: Record, s: seq<Record>)
    ensures DataOf([r] + s) == (if r.Upsert? then [r.upsert.data] else []) + DataOf(s)
  {
    assert ([r] + s)[1..] == s;
  }

  /** `filter_map` keeps the order of the records: it distributes over concatenation. */
  lemma {:induction false} DataOfAppend(a: seq<Record>, b: seq<Record>)
    ensures DataOf(a + b) == DataOf(a) + DataOf(b)
    decreases |a|
  {
    if |a| == 0 {
      assert a + b == b;
    } else {
      DataOfAppend(a[1..], b);
      SplitHead(a, b);
      DataOfCons(a[0], a[1..] + b);
      DataOfCons(a[0], a[1..]);
    }
  }

  /** Solver aid: a concatenation split after its first element, stated once so proofs need not restate it. */
  lemma SplitHead<T>(a: seq<T>, b: seq<T>)
    requires |a| > 0
    ensures a + b == [a[0]] + (a[1..] + b) && a == [a[0]] + a[1..]
  {
  }

  /** `unique_by` over one more element at the front. */
  lemma UniqueByCons<T, K>(x: T, s: seq<T>, key: T -> K, seen: set<K>)
    ensures UniqueBy([x] + s, key, seen) ==
            (if key(x) in seen then UniqueBy(s, key, seen) else [x] + UniqueBy(s, key, seen + {key(x)}))
  {
    assert ([x] + s)[1..] == s;
  }

  /** Scanning the reversed history and keeping first occurrences is the last-writer-wins replay. */
  lemma {:induction false} LiveScan(h: History, seen: set<RecordId>)
    ensures forall x :: x in DataOf(UniqueBy(Reverse(h), RecordKey, seen)) <==>
                        x.id !in seen && x.id in LiveMap(h) && LiveMap(h)[x.id] == x.data
    decreases |h|
  {
    if |h| > 0 {
      var front, r := h[..|h| - 1], h[|h| - 1];
      var k := r.Id();
      assert h == front + [r];
      Snoc(front, r);
      assert Reverse(h) == [r] + Reverse(front);
      UniqueByCons(r, Reverse(front), RecordKey, seen);
      if k in seen {
        LiveScan(front, seen);
      } else {
        LiveScan(front, seen + {k});
        DataOfCons(r, UniqueBy(Reverse(front), RecordKey, seen + {k}));
      }
    }
  }

  /** Dropping tombstones first and then keeping first occurrences replays the upserts only. */
  lemma {:induction false} UpsertScan(h: History, seen: set<RecordId>)
    ensures forall x :: x in UniqueBy(DataOf(Reverse(h)), DataKey, seen) <==>
                        x.id !in seen && x.id in UpsertMap(h) && UpsertMap(h)[x.id] == x.data
    decreases |h|
  {
    if |h| > 0 {
      var front, r := h[..|h| - 1], h[|h| - 1];
      assert h == front + [r];
      assert Reverse(h) == [r] + Reverse(front);
      assert Reverse(h)[1..] == Reverse(front);
      var tail := DataOf(Reverse(front));
      assert DataOf(Reverse(h)) == (if r.Upsert? then [r.upsert.data] + tail else tail);
      UpsertScan(front, seen);
      UpsertScan(front, seen + {r.Id()});
      if r.Upsert? {
        assert ([r.upsert.data] + tail)[1..] == tail;
      }
    }
  }

  /**
   * `records()`: ascending by identifier, each identifier at most once, and
   * holding exactly the live identifiers with their current payloads.
   */
  function Records(h: History): (v: seq<RecordData>)
    ensures StrictlyAscending(v)
    ensures forall x :: x in v <==> x.id in LiveMap(h) && LiveMap(h)[x.id] == x.data
  {
    var latest := UniqueBy(Reverse(h), RecordKey, {});
    var live := DataOf(latest);
    LiveScan(h, {});
    var v := SortById(live);
    SortStrictlyAscending(live);
    assert forall x :: x in v <==> x in multiset(live);
    v
  }

  /**
   * `records_include_deleted()`: ascending by identifier and holding every
   * identifier that was ever upserted, with its most recent upsert's payload,
   * tombstoned or not.
   */
  function RecordsIncludeDeleted(h: History): (v: seq<RecordData>)
    ensures StrictlyAscending(v)
    ensures forall x :: x in v <==> x.id in UpsertMap(h) && UpsertMap(h)[x.id] == x.data
  {
    var latest := UniqueBy(DataOf(Reverse(h)), DataKey, {});
    UpsertScan(h, {});
    var v := SortById(latest);
    SortStrictlyAscending(latest);
    assert forall x :: x in v <==> x in multiset(latest);
    v
  }

  /** The live view is contained in the view that ignores tombstones. */
  lemma LiveViewWithinFullView(h: History)
    ensures forall x :: x in Records(h) ==> x in RecordsIncludeDeleted(h)
  {
    LiveWithinUpserts(h);
  }

  /** `get(id)`: the live entry for `id`, or nothing when `id` is not live. */
  function Get(h: History, id: RecordId): (r: Option<RecordData>)
    ensures r == (if id in LiveMap(h) then Some(RecordData(id, LiveMap(h)[id])) else None)
  {
    FindInView(Records(h), LiveMap(h), id);
    Find(Records(h), id)
  }

  /** In a view that lists exactly the entries of `m`, `find` returns the entry for `id`. */
  lemma FindInView(v: seq<RecordData>, m: map<RecordId, Fields>, id: RecordId)
    requires forall x :: x in v <==> x.id in m && m[x.id] == x.data
    ensures Find(v, id) == (if id in m then Some(RecordData(id, m[id])) else None)
  {
    if id in m {
      assert RecordData(id, m[id]) in v;
    }
  }

  /** The most recent record decides what `get` returns for its identifier. */
  lemma LastRecordDecides(h: History)
    requires |h| > 0
    ensures Get(h, h[|h| - 1].Id()) == Data(h[|h| - 1])
  {
    assert h == h[..|h| - 1] + [h[|h| - 1]];
    Snoc(h[..|h| - 1], h[|h| - 1]);
  }

  /** The identifiers of a sequence of payloads. */
  function IdsOf(s: seq<RecordData>): (ids: set<RecordId>)
    ensures forall k :: k in ids <==> exists x :: x in s && x.id == k
    ensures DistinctIds(s) ==> |ids| == |s|
  {
    if |s| == 0 then {}
    else
      var rest := IdsOf(s[1..]);
      assert forall x :: x in s[1..] ==> x in s;
      assert forall x :: x in s ==> x == s[0] || x in s[1..];
      {s[0].id} + rest
  }

  /** `record_count()`: the number of live identifiers. */
  function RecordCount(h: History): (n: nat)
    ensures n == |LiveMap(h)|
  {
    var v := Records(h);
    assert IdsOf(v) == LiveMap(h).Keys by {
      forall k | k in LiveMap(h).Keys ensures k in IdsOf(v) {
        assert RecordData(k, LiveMap(h)[k]) in v;
      }
    }
    |v|
  }

  /** A non-empty sequence holds its first element. */
  lemma HeadIsMember<T>(s: seq<T>)
    ensures |s| == 0 || s[0] in s
  {
  }

  /** Two strictly ascending sequences with the same elements are equal. */
  lemma {:induction false} AscendingDetermined(a: seq<RecordData>, b: seq<RecordData>)
    requires StrictlyAscending(a) && StrictlyAscending(b)
    requires forall x :: x in a <==> x in b
    ensures a == b
    decreases |a|
  {
    if |a| == 0 {
      HeadIsMember(b);
    } else {
      assert a[0] in b;
      assert |b| > 0;
      assert b[0] in a;
      assert a[0] == b[0];
      forall x
        ensures x in a[1..] <==> x in b[1..]
      {
        assert x in a[1..] <==> x in a && x != a[0];
        assert x in b[1..] <==> x in b && x != b[0];
      }
      AscendingDetermined(a[1..], b[1..]);
      assert a == [a[0]] + a[1..];
      assert b == [b[0]] + b[1..];
    }
  }

  /** Both views depend only on the two replays. */
  lemma ViewsFollowReplay(h: History, g: History)
    requires LiveMap(h) == LiveMap(g) && UpsertMap(h) == UpsertMap(g)
    ensures Records(h) == Records(g)
    ensures RecordsIncludeDeleted(h) == RecordsIncludeDeleted(g)
  {
    AscendingDetermined(Records(h), Records(g));
    AscendingDetermined(RecordsIncludeDeleted(h), RecordsIncludeDeleted(g));
  }

  /** Replay only looks at the maps: histories that agree on them still agree after the same records. */
  lemma {:induction false} SameMapsAfter(h: History, g: History, t: History)
    requires LiveMap(h) == LiveMap(g) && UpsertMap(h) == UpsertMap(g)
    ensures LiveMap(h + t) == LiveMap(g + t) && UpsertMap(h + t) == UpsertMap(g + t)
    decreases |t|
  {
    if |t| == 0 {
      assert h + t == h && g + t == g;
    } else {
      var init := t[..|t| - 1];
      var last := t[|t| - 1];
      SameMapsAfter(h, g, init);
      assert h + t == (h + init) + [last];
      assert g + t == (g + init) + [last];
      Snoc(h + init, last);
      Snoc(g + init, last);
    }
  }

  /** A record folded in twice in a row is invisible: no view can tell it from a single fold. */
  lemma RepeatIsInvisible(h: History, r: Record)
    ensures LiveMap(h + [r, r]) == LiveMap(h + [r])
    ensures UpsertMap(h + [r, r]) == UpsertMap(h + [r])
    ensures Records(h + [r, r]) == Records(h + [r])
    ensures RecordsIncludeDeleted(h + [r, r]) == RecordsIncludeDeleted(h + [r])
  {
    Twice(h, r);
    RepeatMaps(h, r);
    ViewsFollowReplay(h + [r, r], h + [r]);
  }

  /** Solver aid: the two ways of appending a record twice are the same sequence. */
  lemma Twice<T>(h: seq<T>, r: T)
    ensures h + [r, r] == h + [r] + [r]
  {
  }

  /** Folding in the same record again changes neither map. */
  lemma RepeatMaps(h: History, r: Record)
    ensures LiveMap(h + [r] + [r]) == LiveMap(h + [r])
    ensures UpsertMap(h + [r] + [r]) == UpsertMap(h + [r])
  {
    var once := h + [r];
    Snoc(h, r);
    Snoc(once, r);
    if r.Upsert? {
      UpdateTwice(LiveMap(h), r.Id(), r.upsert.data.data);
      UpdateTwice(UpsertMap(h), r.Id(), r.upsert.data.data);
    } else {
      RemoveTwice(LiveMap(h), r.Id());
    }
  }

  /** Solver aid: setting the same key to the same value twice is setting it once. */
  lemma UpdateTwice(m: map<RecordId, Fields>, k: RecordId, v: Fields)
    ensures m[k := v][k := v] == m[k := v]
  {
  }

  /** Solver aid: removing the same key twice is removing it once. */
  lemma RemoveTwice(m: map<RecordId, Fields>, k: RecordId)
    ensures m - {k} - {k} == m - {k}
  {
  }
}

=== FILE: wrappers.dfy ===
/** Failure-compatible result types shared by every module of the model. */
module Wrappers {

  /** Rust's `Option`. */
  datatype Option<+T> = None | Some(value: T)

  /** Rust's `Result`: a value or a classified error. */
  datatype Result<+T, +E> = Ok(value: T) | Err(error: E)
}
